=== FILE: README.md ===
# memory-flow-gallery: a Dafny model of the gallery's logic

memory-flow-gallery is a photo gallery web app whose images are served by the
Cloudinary CDN. Most of it is layout. Underneath are a few pieces with exact,
checkable behaviour, and this project models and proves them:

- **CDN URL builder** (`Cloudinary`). It strips the local path's prefix and
  extension, builds the ordered transformation list, and assembles the
  delivery URL.
- **Prefetch policy and cache** (`ImageUtils`). This covers:
  - the connection-class settings table;
  - the bounded, staggered batch plan;
  - the completed-URL set and hint-element registry, with prefetch, load,
    timeout-cleanup and clear operations;
  - selection of the first gallery thumbnails.
- **Progressive image loader** (`ProgressiveImage`). One run of the effect is a
  function from load outcomes and teardown point to the updates it emits.
- **One-shot prefetch triggers** (`SmartPrefetch`, `NearViewPrefetch`). These
  are latches: a guard, at most one batch, and the first N thumbnails.
- **Gallery page** (`PhotoGallery`). A stable, non-mutating newest-first sort,
  by full date or by year, plus the selected-photo state.
- **Floating viewer** (`FloatingViewer`). The press/move/release drag reducer,
  the like toggle, and the download file name.
- **Upload form** (`Admin`). File acceptance, validation, extension and
  public-id handling, construction of the new gallery entry, and the form
  state after a submission.

`Text` holds the JavaScript string operations the source relies on:
- `startsWith`
- `split` and `join` on one character, each the inverse of the other
- `replace` with a string pattern (first occurrence only)
- `${n}` of an integer, with `ParseInt` as its inverse
- `LastIndexOf`, the last occurrence of a character, which realises the
  regular expression `\.[^/.]+$` of `src/lib/cloudinary.ts:25` (the
  source has no `lastIndexOf` call)

Browser inputs are explicit parameters or events:
- the connection type;
- whether each image load succeeds;
- when a component is torn down;
- pointer coordinates, scroll offset and intersection entries;
- the upload's answer, the id generator and the date.

Timers become offsets in milliseconds, and hint elements become numbered
links.

The model follows the code. In particular, a few behaviours one might
expect of such a gallery are absent from it:
- The viewer has no centring, no clamping to the viewport and no
  previous/next navigation. `FloatingViewer.tsx` declares only `photo` and
  `onClose` and never limits the position. `FloatingViewer.AnyPositionReachable`
  states that nothing clamps.
- `prefetchImage` deduplicates only completed URLs. A URL whose hint is still
  pending gets a second hint, and the registry then forgets the first one
  (`ImageUtils.OverwrittenHintStaysAttached`).
- A hint is removed only by its 30-second timer or by `clearPrefetchCache`,
  not on load or error, and each of them acts only on the hint currently
  registered for the URL. A hint replaced by a second prefetch of the same
  URL is therefore never removed.
- `prefetchImages` returns as soon as the timers are scheduled. It neither
  waits for the batch nor fails, so the triggers' `prefetched` flag means
  "scheduled", not "fetched".

## Model

| member | source | states |
|---|---|---|
| Text.IntToString | src/lib/cloudinary.ts:31 | `${n}` renders a sign then digits, with none of the separators "," "/" "." or " ". |
| Text.ParseIntOfIntToString | src/lib/cloudinary.ts:31 | Reading back a rendered integer gives the integer. This is the inverse that makes number rendering checkable. |
| Text.Split | src/pages/Admin.tsx:123 | `split` always yields at least one piece. The first piece is a prefix of the input, and no piece contains the separator. |
| Text.JoinOfSplit | src/lib/cloudinary.ts:47 | Joining the pieces of a split with the same separator gives back the input. |
| Text.SplitOfJoin | src/lib/cloudinary.ts:47 | Splitting a join of separator-free pieces gives back the pieces. |
| Text.SplitLastPiece | src/pages/Admin.tsx:123 | `split('.').pop()` is the text after the last separator, or the whole text when there is no separator. |
| Text.IndexOf | src/pages/Admin.tsx:73 | The index found is the first occurrence; None means no occurrence. |
| Text.ReplaceFirst | src/pages/Admin.tsx:73 | `replace` with a string pattern: with no occurrence the text is unchanged; otherwise exactly the first occurrence is replaced, and the length changes by \|rep\| − \|pat\|. |
| Text.LastIndexOf | src/lib/cloudinary.ts:25 | The index found holds the character, with none after it; None iff the character is absent. |
| Cloudinary.CleanPath | src/lib/cloudinary.ts:22 | The cleaned path is a suffix of the path, shorter by 0, 1, 7 or 8 characters ("", "/", "images/", "/images/"). |
| Cloudinary.CleanPathStripsLongestPrefix | src/lib/cloudinary.ts:22 | At most one leading "/" and then at most one "images/" are removed. What goes is the longest matchable prefix, and the rest is a suffix of the path. |
| Cloudinary.StripExtension | src/lib/cloudinary.ts:25 | The result is a prefix of the path. If anything was removed it was "." plus a non-empty run without "/" or ".". If nothing was removed, no dot in the path is followed by such a run. |
| Cloudinary.StripExtensionOfExtended | src/lib/cloudinary.ts:25 | Only the final extension goes: base + "." + ext gives back base, whatever dots base contains. |
| Cloudinary.Transformations | src/lib/cloudinary.ts:28-44 | The list always ends with "f_auto","q_auto", so it is never empty. No token contains "," or "/". |
| Cloudinary.TransformationsShape | src/lib/cloudinary.ts:30-41 | "w_W" is present iff width is truthy, and first. "h_H" is present iff height is truthy, right after it. "c_fill" is present iff both are truthy. The length follows from these. |
| Cloudinary.SizesRoundTrip | src/lib/cloudinary.ts:30-36 | Reading the w_/h_ tokens back from the list recovers the truthy width and height. |
| Cloudinary.PublicId | src/lib/cloudinary.ts:22-25 | The public id is a prefix of the cleaned path. When they differ, what follows the id is "." and an extension with no "/" or ".". |
| Cloudinary.Url | src/lib/cloudinary.ts:20-49 | `getCloudinaryUrl` builds a URL that the independent parser reads back as exactly the transformation list and the path's public id. |
| Cloudinary.UrlRoundTrip | src/lib/cloudinary.ts:47-48 | Every URL is BASE/<list joined by ",">/memoir-gallery/<public id>. Parsing it recovers exactly the list and the public id. |
| Cloudinary.ParseUrlInjective | src/lib/cloudinary.ts:47-48 | Two URLs that parse to the same parts are the same URL, so the parsed form determines the URL. |
| Cloudinary.UrlDependsOnlyOnSizes | src/lib/cloudinary.ts:28-48 | Two option sets give the same URL iff they agree on the truthy width and height. `quality` and `format` never matter. |
| Cloudinary.ThumbnailTransformations | src/lib/cloudinary.ts:54-59 | The thumbnail preset's list is exactly w_400,h_300,c_fill,f_auto,q_auto. |
| Cloudinary.MediumTransformations | src/lib/cloudinary.ts:64-69 | The medium preset's list is exactly w_800,h_600,c_fill,f_auto,q_auto. |
| Cloudinary.FullTransformations | src/lib/cloudinary.ts:74-78 | The full preset's list is exactly w_1200,f_auto,q_auto, with no crop. |
| Cloudinary.ThumbnailUrl | src/lib/cloudinary.ts:54-59 | The thumbnail URL parses to that list and the path's public id. |
| Cloudinary.MediumUrl | src/lib/cloudinary.ts:64-69 | The medium URL parses to that list and the path's public id. |
| Cloudinary.FullUrl | src/lib/cloudinary.ts:74-78 | The full URL parses to that list and the path's public id. |
| ImageUtils.NetworkSettings | src/lib/image-utils.ts:9-28 | Prefetching is off exactly on "2g" (0 images, no delay). "3g" gives 6 images 400 ms apart. Everything else, including no connection information, gives 12 images 200 ms apart. Prefetching is on iff max > 0 iff delay > 0. |
| ImageUtils.SliceEnd | src/lib/image-utils.ts:105 | `slice(0, end)` stops at min(end, length), and a negative end counts from the back. |
| ImageUtils.TopGalleryImages | src/lib/image-utils.ts:103-107 | The result is the thumbnails of the first photos, in order, as many as `slice(0, count)` keeps: min(count, length), or length + count for a negative count (at least 0). |
| ImageUtils.PrefetchImages | src/lib/image-utils.ts:81-98 | Nothing is scheduled when prefetching is off. Otherwise exactly the first min(max, \|urls\|) URLs are scheduled, in order, item i at i × delay, so the caller's stagger never applies. |
| ImageUtils.ReducedBatchIsBounded | src/lib/image-utils.ts:81-98 | On "3g" a batch is at most 6 URLs, 400 ms apart. |
| ImageUtils.PrefetchImage | src/lib/image-utils.ts:33-65 | A completed URL resolves at once with no change. Otherwise a fresh hint is attached and registered for the URL, replacing any earlier entry: the registry is the old one with this URL mapped to the new hint, so other URLs' entries are kept. The new hint is the next fresh element and the counter advances by one. The completed set is unchanged. The registry invariant is kept. |
| ImageUtils.OnHintLoad | src/lib/image-utils.ts:47-50 | The load adds exactly this URL to the completed set. The registry, the attached hints and the element counter are unchanged. |
| ImageUtils.CleanupPrefetchLink | src/lib/image-utils.ts:70-76 | A registry entry is deleted and its hint detached only if it exists and is attached; every other URL's entry is kept. Otherwise nothing changes. The completed set is never touched. |
| ImageUtils.ClearPrefetchCache | src/lib/image-utils.ts:112-124 | Afterwards no URL is cached. Every registered hint is detached and the registry is empty. |
| ImageUtils.RunKeepsValid | src/lib/image-utils.ts:33-76 | Every sequence of prefetch, load, error and timeout events keeps the registry invariant: registered hints are attached, one hint per URL, and link numbers are fresh. |
| ImageUtils.CompletedOnlyOnLoad | src/lib/image-utils.ts:41-54 | A URL becomes cached only through a load event for it that comes after a hint element was created for it. An error never adds it. |
| ImageUtils.CachedIffLoaded | src/lib/image-utils.ts:112-114 | `isImageCached` turns true for a URL exactly when, during the run, a hint created for that URL loaded. |
| ImageUtils.CompletedWereHinted | src/lib/image-utils.ts:41-48 | Starting from a cache whose completed URLs were all hinted (such as the empty one), every completed URL was given a hint element at some point. |
| ImageUtils.CompletedOnlyGrows | src/lib/image-utils.ts:33-76 | Without clearing, the completed set only grows. |
| ImageUtils.OverwrittenHintStaysAttached | src/lib/image-utils.ts:36-76 | Prefetching a pending URL twice, then letting both timers fire, leaves the first hint attached with no registry entry pointing at it. |
| ImageUtils.RunPlan | src/lib/image-utils.ts:90-95 | Every scheduled item is attempted, and a failure is caught per item. Exactly the loaded URLs join the completed set. An item rejects iff its load fails and its URL was not already cached. |
| ProgressiveImage.Initial | src/hooks/useProgressiveImage.tsx:28-34 | The first state is placeholder, src = placeholderSrc, not loaded, progress 0. |
| ProgressiveImage.Effect | src/hooks/useProgressiveImage.tsx:36-113 | The direct path requests only the high-quality source. The progressive path first shows the loaded placeholder at progress 10, and requests low quality and then, if at all, high quality. |
| ProgressiveImage.DirectPath | src/hooks/useProgressiveImage.tsx:37-55 | With progressive loading off, a successful load ends at the high-quality image, loaded, with progress 100. A failed load ends at the error record with the progress still 0. |
| ProgressiveImage.ProgressiveSuccess | src/hooks/useProgressiveImage.tsx:62-94 | With both loads succeeding and no teardown, the stages are exactly placeholder(loaded), low quality, high quality, with progress 10, 50, 100. The hook ends loaded and not loading. |
| ProgressiveImage.LowFailureSkipsHigh | src/hooks/useProgressiveImage.tsx:71-105 | A low-quality failure means the high-quality source is never requested. If the component is mounted, the run ends on the error record (placeholder src, not loaded). |
| ProgressiveImage.ErrorIffObservedFailure | src/hooks/useProgressiveImage.tsx:48-119 | The hook ends in error iff a load failed while mounted (in the direct path, iff a load failed at all). It then shows the error record. |
| ProgressiveImage.EffectStages | src/hooks/useProgressiveImage.tsx:36-113 | The stage records of every run are the placeholder, then low and high quality as far as loads succeed and the component stays mounted, with the error record in place of an observed failure. |
| ProgressiveImage.StagesMoveForward | src/hooks/useProgressiveImage.tsx:62-105 | Stages strictly move forward, error is terminal, and high quality and error never both occur. |
| ProgressiveImage.TeardownTruncates | src/hooks/useProgressiveImage.tsx:58-112 | Teardown only cuts the progressive run short: its updates and requests are prefixes of the mounted run's. The direct path ignores teardown. |
| ProgressiveImage.LoadingIffUnsettled | src/hooks/useProgressiveImage.tsx:118-119 | After a run, `isError` holds iff a failure was observed while mounted. The high-quality stage is shown iff the run reached it. `isLoading` holds iff neither happened. |
| ProgressiveImage.FinalRecordIsLastStage | src/hooks/useProgressiveImage.tsx:115-120 | The hook's state is the last stage and the last progress set, or the initial values when none was set. |
| SmartPrefetch.Batch | src/hooks/useSmartPrefetch.tsx:43-46 | The batch is the thumbnail URLs of the first photos, in order, as many as `slice(0, maxImages)` keeps. |
| SmartPrefetch.TriggerPrefetch | src/hooks/useSmartPrefetch.tsx:33-58 | The trigger is a no-op when latched or when the gallery is empty (an empty gallery leaves the latch unset). Otherwise it latches and starts that batch. |
| SmartPrefetch.Step | src/hooks/useSmartPrefetch.tsx:51-71 | The timer, a direct call and a scroll strictly past the threshold run `triggerPrefetch`; any other scroll does nothing. A data change only replaces the gallery. A settle with a batch in flight clears isPrefetching, and sets `prefetched` only on success; it never touches the gallery or the latch, and with none in flight it changes nothing. |
| SmartPrefetch.AtMostOneBatch | src/hooks/useSmartPrefetch.tsx:34-71 | Over any mix of timer, scroll and direct triggers there is at most one batch per instance, and none once latched. The latch is set iff a batch started. |
| SmartPrefetch.BatchIsFirstThumbnails | src/hooks/useSmartPrefetch.tsx:43-49 | With the data unchanged, every batch is the first maxImages thumbnails at stagger 200. |
| SmartPrefetch.PrefetchedOnlyOnSuccess | src/hooks/useSmartPrefetch.tsx:38-54 | `prefetched` becomes true only through a successful settle that comes while a batch is in flight. |
| SmartPrefetch.PrefetchedAfterBatch | src/hooks/useSmartPrefetch.tsx:38-51 | From a fresh hook, whenever `prefetched` is true the one batch has been started. |
| SmartPrefetch.SettledEndsPrefetching | src/hooks/useSmartPrefetch.tsx:55-57 | After a batch settles either way, isPrefetching is false. |
| NearViewPrefetch.RootMargin | src/hooks/usePrefetchOnNearView.tsx:63 | The margin string splits at spaces into exactly four lengths: threshold px, 0px, threshold px, 0px. |
| NearViewPrefetch.RootMarginValues | src/hooks/usePrefetchOnNearView.tsx:63 | rootMargin reads back as top = bottom = threshold and left = right = 0 px. |
| NearViewPrefetch.Batch | src/hooks/usePrefetchOnNearView.tsx:43-45 | The batch is the thumbnail URLs of the first photos, in order, as many as `slice(0, maxImages)` keeps. |
| NearViewPrefetch.SameBatchAsSmartPrefetch | src/hooks/usePrefetchOnNearView.tsx:43-45 | The batch is getThumbnailUrl of the first maxImages photos, the same URLs the engagement trigger picks. |
| NearViewPrefetch.OnIntersection | src/hooks/usePrefetchOnNearView.tsx:36-59 | One callback starts at most one batch, and one exactly when the latch was unset and some entry intersects. The latch ends set iff it was set or an entry intersected. |
| NearViewPrefetch.Step | src/hooks/usePrefetchOnNearView.tsx:29-57 | An effect run takes the new data and installs an observer iff a target exists, the latch is unset and there is data; nothing else changes. With an observer the callback runs over its entries (`OnIntersection`); without one it does nothing. A settle with a batch in flight clears isPrefetching and sets `prefetched` only on success, changing nothing else; with none in flight it changes nothing. Only an effect run changes the data. |
| NearViewPrefetch.GalleryIsLatestData | src/hooks/usePrefetchOnNearView.tsx:29-74 | After any events, the data the observer closes over is that of the latest effect run (or the initial data when the effect never ran). |
| NearViewPrefetch.BatchIsLatestData | src/hooks/usePrefetchOnNearView.tsx:36-47 | A batch the callback starts is the first maxImages thumbnails of the latest effect run's data, at stagger 150. |
| NearViewPrefetch.AtMostOneBatch | src/hooks/usePrefetchOnNearView.tsx:29-40 | Over any event sequence there is at most one batch per instance, and none once latched. |
| NearViewPrefetch.NoObserverNoBatch | src/hooks/usePrefetchOnNearView.tsx:31-33 | With no observer installed, nothing starts until the effect runs again. |
| NearViewPrefetch.PrefetchedOnlyOnSuccess | src/hooks/usePrefetchOnNearView.tsx:39-54 | `prefetched` becomes true only through a successful settle that comes while a batch is in flight. |
| NearViewPrefetch.PrefetchedAfterBatch | src/hooks/usePrefetchOnNearView.tsx:39-49 | From a fresh hook, whenever `prefetched` is true the one batch has been started. |
| PhotoGallery.Compare | src/components/PhotoGallery.tsx:29-38 | The comparator's sign is ≤ 0 iff a's key is not earlier than b's, and 0 iff the keys are equal. The year key blanks month and day. |
| PhotoGallery.SortPhotos | src/components/PhotoGallery.tsx:29-38 | The result is a permutation of the photos, newest first by the mode's key. Photos with equal keys keep their order (stable sort). |
| PhotoGallery.InsertKeepsSorted | src/components/PhotoGallery.tsx:29-38 | Inserting into a newest-first list keeps it newest first. |
| PhotoGallery.InsertWithKey | src/components/PhotoGallery.tsx:29-38 | Insertion keeps the new photo ahead of, and the others in order among, photos with its key. |
| PhotoGallery.Step | src/components/PhotoGallery.tsx:21-53 | Click and navigate select the photo, and close clears the selection. Loading the data sets the photos to it, and the slider sets the mode. Nothing else changes the photos or the mode. |
| PhotoGallery.PhotosOnlyChangeOnLoad | src/components/PhotoGallery.tsx:25-38 | Sorting, selecting and closing never reorder or change the photo state. |
| PhotoGallery.ViewerShownAfter | src/components/PhotoGallery.tsx:40-67 | After any history, a click shows the viewer on that photo and a close hides it. |
| FloatingViewer.Step | src/components/FloatingViewer.tsx:12-97 | A press drags only from the viewer or the handle, and records the point; it never moves the viewer or changes the like. A move when idle does nothing. A move when dragging shifts the viewer by the pointer delta and the drag continues. Release ends the drag in place. Only the heart changes the like. |
| FloatingViewer.MovesTelescope | src/components/FloatingViewer.tsx:19-27 | A run of moves displaces the viewer by the last pointer minus the press point, whatever the path. |
| FloatingViewer.IdleMovesChangeNothing | src/components/FloatingViewer.tsx:20-36 | Moves with no drag in progress leave the state unchanged. |
| FloatingViewer.DragSession | src/components/FloatingViewer.tsx:19-49 | Press, moves and release land the viewer at its old position plus the total pointer displacement, with the drag over. |
| FloatingViewer.AnyPositionReachable | src/components/FloatingViewer.tsx:22-73 | No clamping: one move can put the viewer at any position. |
| FloatingViewer.ToggleLikeTwice | src/components/FloatingViewer.tsx:97 | Liking twice restores the state. |
| FloatingViewer.DownloadName | src/components/FloatingViewer.tsx:54 | The download name ends in ".jpg" and what precedes the suffix is the title. |
| FloatingViewer.DownloadNameRoundTrip | src/components/FloatingViewer.tsx:54 | The download name is title + ".jpg", and the title is recovered from it. |
| Admin.FileChosen | src/pages/Admin.tsx:37-48 | A chosen file replaces the selection iff it is present and its MIME type starts with "image/". Otherwise the selection is kept. Nothing else changes. |
| Admin.TrimPublicId | src/pages/Admin.tsx:73 | The id is unchanged iff "memoir-gallery/" does not occur in it; otherwise it loses exactly that many characters. |
| Admin.TrimRemovesFolder | src/pages/Admin.tsx:73 | An id returned as "memoir-gallery/<rest>" is trimmed to <rest>. |
| Admin.TrimRemovesFirstOnly | src/pages/Admin.tsx:73 | Only the first "memoir-gallery/" occurrence is removed. |
| Admin.TrimLeavesOtherIds | src/pages/Admin.tsx:73 | An id without the folder prefix is returned unchanged. |
| Admin.LocalFilename | src/pages/Admin.tsx:122-124 | The local name is the trimmed id, ".", the extension; whenever the extension is a real one, removing it gives back the trimmed id. |
| Admin.FileExtension | src/pages/Admin.tsx:123 | The extension has no "." and ends the name. It is the whole name when there is no dot, and otherwise follows the last dot. |
| Admin.BuildPhoto | src/pages/Admin.tsx:130-139 | The entry's filename and thumbnail are both "images/" + the local file name. The form fields are copied (caption possibly empty), and id and date come from outside. |
| Admin.Submit | src/pages/Admin.tsx:104-158 | A submission missing the file, title, tag or season is rejected with no change. Otherwise uploading ends false either way. A failure keeps the form. A success yields exactly the entry `BuildPhoto` makes from the form, the trimmed id with the file's extension, the id and the date, and resets the form. |
| Admin.RejectedSubmitIgnoresUpload | src/pages/Admin.tsx:107-114 | A rejected submission does not depend on the upload, because none is attempted. |
| Admin.EntryResolvesToUploadedId | src/pages/Admin.tsx:120-134 | When the file has a real extension, the URL builder maps the new entry's path back to exactly the uploaded (trimmed) id. |
| Admin.TrailingDotKeepsDot | src/pages/Admin.tsx:123-124 | A file name ending in "." gives an empty extension. The entry's public id then keeps a trailing dot, so it no longer names the uploaded image. |

## Left out

- Browser plumbing is not modelled: DOM insertion of link and anchor
  elements, `Image` loading, IntersectionObserver, scroll listeners, timers
  and `navigator.connection`. Load outcomes, entries, scroll offsets and the
  connection are inputs, and stagger is an offset in milliseconds.
- I/O is not modelled: the upload `fetch`, the local download, toasts and
  console output. The upload's answer is an input, and the local download and
  the gallery-entry log cannot fail in the model.
- `isCloudinaryConfigured` and the Admin page's development-only redirect are
  left out. They read the build environment.
- `generateUniqueId` is left out because it mixes the clock with
  floating-point randomness. `Photo.id` is an integer parameter.
- The entry's date comes from the clock through `toISOString`, so it is a
  parameter. Date strings are parsed (year, month, day) triples. `Date`
  parsing, invalid dates and locale formatting are not modelled.
- `PhotoGallery.SortPhotos`: year mode uses the literal year of the date
  string. The source calls `getFullYear()`, which reads local time, while
  `new Date("YYYY-01-01")` is UTC midnight. West of UTC such a photo
  therefore falls into the previous year, and the order can differ; that
  time-zone shift is not modelled.
- Numbers are unbounded integers. Fractional widths, thresholds and pointer
  coordinates, NaN, and JavaScript's exponent form of large numbers are not
  modelled.
- `preloadImage` is not modelled. Its success or failure is an input.
- `ImageUtils.RunPlan`: items are applied one after another. The real timers
  interleave with the loads, and that interleaving is not modelled.
- `ProgressiveImage.Effect`: models one run of the effect. A re-run after a
  source change and React's batching of updates are not modelled.
- `SmartPrefetch.Step`: a settle is an event, not tied to the promise of a
  particular batch. A settle with no batch in flight is ignored; the timing of
  the settle relative to other events is left free.
- `NearViewPrefetch.Step`: settles are modelled as in `SmartPrefetch.Step`.
- `NearViewPrefetch.RootMarginValues`: covers integer thresholds only.
- `PhotoGallery.SortPhotos` is stated as JavaScript's stable sort. A
  comparator that is not a consistent order (invalid dates giving NaN) is not
  modelled.
- `PhotoGallery`: the `photos` prop passed to the viewer is ignored by the
  viewer, so it is not modelled. `GalleryEvent.Navigated` models
  `handleNavigate`, which is passed as `onNavigate`, but `FloatingViewer.tsx`
  never calls that prop, so the event never occurs in the program.
- `FloatingViewer.Step`: listener attachment on drag start and detachment on
  release are not modelled. Only their effect on the state is modelled.
- Viewer centring, clamping and navigation are absent from the code and are
  not modelled.

=== FILE: admin.dfy ===
/**
 * The development upload form: which chosen files it accepts, when a
 * submission may go ahead, how the gallery entry for an uploaded image is
 * named, and the state the form is left in. The upload itself, the local
 * download, the id generator and the clock are inputs.
 */
module Admin {
  import opened Text
  import opened PhotoGallery
  import Cloudinary

  /** A chosen file: its name and its MIME type. */
  datatype ChosenFile = ChosenFile(name: string, mimeType: string)

  datatype FormData = FormData(title: string, caption: string, tag: string, season: string)

  const EmptyForm: FormData := FormData("", "", "", "")

  datatype AdminState = AdminState(form: FormData, file: Option<ChosenFile>, isUploading: bool)

  const Initial: AdminState := AdminState(EmptyForm, None, false)

  predicate IsImageType(mimeType: string) {
    StartsWith(mimeType, "image/")
  }

  /**
   * `handleFileChange`: the first chosen file replaces the selection only if
   * it is an image; no file, or a file of another type, keeps the previous
   * selection.
   */
  function FileChosen(s: AdminState, chosen: Option<ChosenFile>): (s': AdminState)
    ensures s'.form == s.form && s'.isUploading == s.isUploading
    ensures s'.file != s.file ==> chosen.Some? && s'.file == chosen
    ensures s'.file.Some? && s'.file != s.file ==> IsImageType(s'.file.value.mimeType)
    ensures chosen.Some? && IsImageType(chosen.value.mimeType) ==> s'.file == chosen
  {
    match chosen
    case Some(f) => if IsImageType(f.mimeType) then s.(file := Some(f)) else s
    case None => s
  }

  /** Whether a submission goes ahead: a file, a title, a tag and a season; the caption is optional. */
  predicate ReadyToSubmit(s: AdminState) {
    s.file.Some? && s.form.title != "" && s.form.tag != "" && s.form.season != ""
  }

  /** The folder prefix the upload returns in front of the id. */
  const FolderPrefix: string := Cloudinary.Folder + "/"

  /** The public id returned by the upload with its first folder prefix removed. */
  function TrimPublicId(publicId: string): (r: string)
    ensures r == publicId <==> forall j :: 0 <= j ==> !OccursAt(publicId, FolderPrefix, j)
    ensures forall j :: OccursAt(publicId, FolderPrefix, j) ==> |r| == |publicId| - |FolderPrefix|
  {
    ReplaceFirst(publicId, FolderPrefix, "")
  }

  lemma TrimRemovesFolder(rest: string)
    ensures TrimPublicId(FolderPrefix + rest) == rest
  {
    assert OccursAt(FolderPrefix + rest, FolderPrefix, 0);
  }

  /** Only the first occurrence goes: a nested folder name survives. */
  lemma TrimRemovesFirstOnly(publicId: string, i: nat)
    requires OccursAt(publicId, FolderPrefix, i)
    requires forall j :: 0 <= j < i ==> !OccursAt(publicId, FolderPrefix, j)
    ensures TrimPublicId(publicId) == publicId[..i] + publicId[i + |FolderPrefix|..]
  {
  }

  lemma TrimLeavesOtherIds(publicId: string)
    requires forall j :: 0 <= j ==> !OccursAt(publicId, FolderPrefix, j)
    ensures TrimPublicId(publicId) == publicId
  {
  }

  /**
   * `name.split('.').pop()`: the text after the last ".", or the whole name
   * when it has none.
   */
  function FileExtension(name: string): (ext: string)
    ensures '.' !in ext
    ensures EndsWith(name, ext)
    ensures '.' !in name ==> ext == name
    ensures '.' in name ==> |name| > |ext| && name[|name| - |ext| - 1] == '.'
  {
    var parts := Split(name, '.');
    SplitLastPiece(name, '.');
    parts[|parts| - 1]
  }

  /** The name the local copy is saved under: the trimmed id, ".", the extension. */
  function LocalFilename(trimmedId: string, fileName: string): (r: string)
    ensures Cloudinary.IsExtension(FileExtension(fileName)) ==> Cloudinary.StripExtension(r) == trimmedId
  {
    var ext := FileExtension(fileName);
    var r := trimmedId + "." + ext;
    assert Cloudinary.IsExtension(ext) ==> Cloudinary.StripExtension(r) == trimmedId by {
      if Cloudinary.IsExtension(ext) {
        Cloudinary.StripExtensionOfExtended(trimmedId, ext);
      }
    }
    r
  }

  /**
   * The new gallery entry: both paths point at the local copy under
   * "images/", the caption may be empty, and the id and date come from
   * outside.
   */
  function BuildPhoto(form: FormData, localFilename: string, id: int, date: Date): (p: Photo)
    ensures p.filename == "images/" + localFilename && p.thumbnail == p.filename
    ensures p.title == form.title && p.tag == form.tag && p.season == form.season && p.caption == form.caption
    ensures p.id == id && p.date == date
  {
    Photo(id, form.title, "images/" + localFilename, "images/" + localFilename, date, form.tag, form.season, form.caption)
  }

  /** The upload's answer: the public id it returned, or a failed request. */
  datatype UploadOutcome = Uploaded(publicId: string) | UploadFailed

  datatype SubmitResult = MissingFields | UploadError | Added(photo: Photo)

  /**
   * `handleSubmit`: rejected before any upload when a required field is
   * missing; otherwise the upload runs, and on success the entry is built and
   * the form reset. `isUploading` is false once the submission is over,
   * whichever way it went.
   */
  function Submit(s: AdminState, upload: UploadOutcome, id: int, date: Date): (r: (AdminState, SubmitResult))
    ensures !ReadyToSubmit(s) ==> r == (s, MissingFields)
    ensures ReadyToSubmit(s) ==> !r.0.isUploading
    ensures ReadyToSubmit(s) && upload.UploadFailed? ==> r == (s.(isUploading := false), UploadError)
    ensures ReadyToSubmit(s) && upload.Uploaded? ==>
              r == (Initial, Added(BuildPhoto(s.form, LocalFilename(TrimPublicId(upload.publicId), s.file.value.name), id, date)))
    ensures r.1.Added? ==> r.0 == Initial && upload.Uploaded?
    ensures r.1.Added? ==> var p := r.1.photo;
              && p.title != "" && p.tag != "" && p.season != ""
              && p.filename == "images/" + LocalFilename(TrimPublicId(upload.publicId), s.file.value.name)
  {
    if !ReadyToSubmit(s) then (s, MissingFields)
    else
      match upload
      case UploadFailed => (s.(isUploading := false), UploadError)
      case Uploaded(raw) =>
        var local := LocalFilename(TrimPublicId(raw), s.file.value.name);
        (AdminState(EmptyForm, None, false), Added(BuildPhoto(s.form, local, id, date)))
  }

  /** A rejected submission never reaches the upload: its outcome cannot matter. */
  lemma RejectedSubmitIgnoresUpload(s: AdminState, u1: UploadOutcome, u2: UploadOutcome, id: int, date: Date)
    requires !ReadyToSubmit(s)
    ensures Submit(s, u1, id, date) == Submit(s, u2, id, date)
  {
  }

  /**
   * The entry finds its image again: as long as the extension is a real
   * one (non-empty, no "/"), the gallery's URL builder maps the entry's
   * path back to exactly the trimmed id the upload returned.
   */
  lemma EntryResolvesToUploadedId(trimmedId: string, fileName: string)
    requires FileExtension(fileName) != "" && '/' !in FileExtension(fileName)
    ensures Cloudinary.PublicId("images/" + LocalFilename(trimmedId, fileName)) == trimmedId
  {
    assert Cloudinary.IsExtension(FileExtension(fileName));
    Cloudinary.CleanImagesPath(LocalFilename(trimmedId, fileName));
  }

  /** A file name ending in "." gives an empty extension, and then the entry's public id keeps the dot. */
  lemma TrailingDotKeepsDot(trimmedId: string, fileName: string)
    requires |fileName| > 0 && fileName[|fileName| - 1] == '.'
    ensures FileExtension(fileName) == ""
    ensures Cloudinary.PublicId("images/" + LocalFilename(trimmedId, fileName)) == trimmedId + "."
  {
    Cloudinary.CleanImagesPath(LocalFilename(trimmedId, fileName));
  }
}

=== FILE: cloudinary.dfy ===
/**
 * The Cloudinary delivery-URL builder: a local image path such as
 * "images/telephonenom.jpg" becomes
 * BASE/<transformations>/memoir-gallery/<public id>.
 */
module Cloudinary {
  import opened Text

  const CloudName: string := "dxmpicoqj"
  const Folder: string := "memoir-gallery"
  const BaseUrl: string := "https://res.cloudinary.com/" + CloudName + "/image/upload"

  /**
   * The builder's size options. A JavaScript number option is an optional
   * integer; `quality` and `format` are accepted but never read.
   */
  datatype SizeOptions = SizeOptions(
    width: Option<int>,
    height: Option<int>,
    quality: Option<string>,
    format: Option<string>)

  /** JavaScript truthiness of an optional number: present and non-zero. */
  predicate Truthy(n: Option<int>) {
    n.Some? && n.value != 0
  }

  /** An optional number with its falsy values collapsed to `None`. */
  function Normalize(n: Option<int>): Option<int> {
    if Truthy(n) then n else None
  }

  /** The texts the pattern `^\/?(images\/)?` can match. */
  predicate IsPathPrefix(pre: string) {
    pre == "" || pre == "/" || pre == "images/" || pre == "/images/"
  }

  /** The pattern `^\/?(images\/)?` replaced by nothing. */
  function CleanPath(path: string): (r: string)
    ensures |r| <= |path| && path[|path| - |r|..] == r
    ensures |path| - |r| in {0, 1, 7, 8}
  {
    var a := if StartsWith(path, "/") then 1 else 0;
    var b := if StartsWith(path[a..], "images/") then 7 else 0;
    path[a + b..]
  }

  /**
   * CleanPath removes at most one leading "/" and then at most one
   * "images/": what it removes is the longest of the four matchable prefixes
   * that the path starts with, and nothing else changes.
   */
  lemma CleanPathStripsLongestPrefix(path: string)
    ensures var r := CleanPath(path);
            && |r| <= |path| && path[|path| - |r|..] == r
            && IsPathPrefix(path[..|path| - |r|])
            && forall pre :: IsPathPrefix(pre) && StartsWith(path, pre) ==> |pre| <= |path| - |r|
  {
    var r := CleanPath(path);
    if StartsWith(path, "/") {
      assert path[0] == '/';
      if StartsWith(path[1..], "images/") {
        assert path[..8] == "/" + path[1..][..7];
        assert path[..8] == "/images/";
      } else {
        assert path[..1] == "/";
        assert |path| >= 8 ==> path[..8][1..] == path[1..][..7];
        assert !StartsWith(path, "/images/");
      }
    } else {
      if StartsWith(path, "images/") {
        assert path[..7] == "images/";
      } else {
        assert path[..0] == "";
      }
    }
  }

  /** A path under "images/" is cleaned to what follows the folder. */
  lemma CleanImagesPath(rest: string)
    ensures CleanPath("images/" + rest) == rest
  {
    var path := "images/" + rest;
    assert path[0] == 'i';
    assert !StartsWith(path, "/");
    assert path[..7] == "images/";
  }

  /** What `[^/.]+` matches: a non-empty run with no "/" and no ".". */
  predicate IsExtension(ext: string) {
    |ext| >= 1 && '/' !in ext && '.' !in ext
  }

  /**
   * The pattern `\.[^/.]+$` replaced by nothing: a final "." followed by a
   * non-empty extension is removed; otherwise the path is unchanged.
   */
  function StripExtension(p: string): (r: string)
    ensures |r| <= |p| && p[..|r|] == r
    ensures r != p ==> p[|r|] == '.' && IsExtension(p[|r| + 1..])
    ensures r == p ==> forall i :: 0 <= i < |p| && p[i] == '.' ==> !IsExtension(p[i + 1..])
  {
    match LastIndexOf(p, '.')
    case None => p
    case Some(k) =>
      if IsExtension(p[k + 1..]) then p[..k]
      else
        assert forall i :: 0 <= i < k && p[i] == '.' ==> p[i + 1..][k - i - 1] == '.';
        assert forall i :: k < i < |p| ==> p[k + 1..][i - k - 1] == p[i];
        p
  }

  /**
   * Only the final extension goes: a base followed by "." and an extension
   * gives back the base, whatever dots the base itself contains.
   */
  lemma StripExtensionOfExtended(base: string, ext: string)
    requires IsExtension(ext)
    ensures StripExtension(base + "." + ext) == base
  {
    var p := base + "." + ext;
    var r := StripExtension(p);
    assert p[|base|] == '.' && p[|base| + 1..] == ext;
    assert r != p;
    assert forall j :: |base| < j < |p| ==> p[j] == ext[j - |base| - 1];
    assert forall j :: |r| < j < |p| ==> p[j] == p[|r| + 1..][j - |r| - 1];
    assert |r| >= |base|;
    assert |r| <= |base|;
    assert r == p[..|base|];
  }

  /** The Cloudinary public id of a local path: cleaned, then without its extension. */
  function PublicId(path: string): (r: string)
    ensures var c := CleanPath(path);
            && |r| <= |c| && c[..|r|] == r
            && (r != c ==> c[|r|] == '.' && IsExtension(c[|r| + 1..]))
  {
    StripExtension(CleanPath(path))
  }

  /** A transformation token: it contains neither the list separator nor a path separator. */
  predicate IsToken(t: string) {
    ',' !in t && '/' !in t
  }

  function WidthToken(w: int): (t: string)
    ensures |t| >= 3 && t[0] == 'w' && IsToken(t)
  {
    assert ',' !in "w_" && '/' !in "w_";
    "w_" + IntToString(w)
  }

  function HeightToken(h: int): (t: string)
    ensures |t| >= 3 && t[0] == 'h' && IsToken(t)
  {
    assert ',' !in "h_" && '/' !in "h_";
    "h_" + IntToString(h)
  }

  /** The ordered transformation list. */
  function Transformations(o: SizeOptions): (r: seq<string>)
    ensures |r| >= 2 && r[|r| - 2] == "f_auto" && r[|r| - 1] == "q_auto"
    ensures forall i :: 0 <= i < |r| ==> IsToken(r[i])
  {
    var w := if Truthy(o.width) then [WidthToken(o.width.value)] else [];
    var h := if Truthy(o.height) then [HeightToken(o.height.value)] else [];
    var c := if Truthy(o.width) && Truthy(o.height) then ["c_fill"] else [];
    assert IsToken("c_fill") && IsToken("f_auto") && IsToken("q_auto");
    w + h + c + ["f_auto", "q_auto"]
  }

  /**
   * A width token is present iff the width is truthy and a height token iff
   * the height is truthy, width first; "c_fill" is present iff both are.
   */
  lemma TransformationsShape(o: SizeOptions)
    ensures var r := Transformations(o);
            && |r| == 2 + (if Truthy(o.width) then 1 else 0) + (if Truthy(o.height) then 1 else 0)
                        + (if Truthy(o.width) && Truthy(o.height) then 1 else 0)
            && (Truthy(o.width) <==> r[0][0] == 'w')
            && (Truthy(o.width) ==> r[0] == WidthToken(o.width.value))
            && (Truthy(o.height) ==> r[if Truthy(o.width) then 1 else 0] == HeightToken(o.height.value))
            && ("c_fill" in r <==> Truthy(o.width) && Truthy(o.height))
            && (forall i :: 0 <= i < |r| ==> |r[i]| >= 1 && (r[i][0] == 'w' <==> Truthy(o.width) && i == 0))
            && (forall i :: 0 <= i < |r| ==> (r[i][0] == 'h' <==> Truthy(o.height) && i == (if Truthy(o.width) then 1 else 0)))
  {
    var r := Transformations(o);
    assert "f_auto"[0] == 'f' && "c_fill"[0] == 'c' && "q_auto"[0] == 'q';
    if !(Truthy(o.width) && Truthy(o.height)) {
      assert forall i :: 0 <= i < |r| ==> r[i][0] != 'c';
    }
  }

  /** The complete delivery URL for a local path. */
  function Url(path: string, o: SizeOptions): (r: string)
    ensures ParseUrl(r) == Some(UrlParts(Transformations(o), PublicId(path)))
  {
    var ts := Transformations(o);
    NotInJoin(ts, ',', '/');
    ParseAssembledUrl(Join(ts, ','), PublicId(path));
    SplitOfJoin(ts, ',');
    BaseUrl + "/" + Join(ts, ',') + "/" + Folder + "/" + PublicId(path)
  }

  /** The size a transformation list encodes under `key` ('w' or 'h'): the first `key_<n>` token read back. */
  function ReadSize(ts: seq<string>, key: char): Option<int>
    decreases |ts|
  {
    if |ts| == 0 then None
    else if StartsWith(ts[0], [key, '_']) then ParseInt(ts[0][2..])
    else ReadSize(ts[1..], key)
  }

  /** `ReadSize` finds the first token carrying the key. */
  lemma {:induction false} ReadSizeFindsFirst(ts: seq<string>, key: char, k: nat)
    requires k <= |ts|
    requires forall i :: 0 <= i < k ==> !StartsWith(ts[i], [key, '_'])
    requires k < |ts| ==> StartsWith(ts[k], [key, '_'])
    ensures ReadSize(ts, key) == if k < |ts| then ParseInt(ts[k][2..]) else None
    decreases k
  {
    if k > 0 {
      ReadSizeFindsFirst(ts[1..], key, k - 1);
    }
  }

  /**
   * The transformation list encodes exactly the truthy width and height:
   * reading it back yields them, and falsy sizes read back as absent.
   */
  lemma SizesRoundTrip(o: SizeOptions)
    ensures ReadSize(Transformations(o), 'w') == Normalize(o.width)
    ensures ReadSize(Transformations(o), 'h') == Normalize(o.height)
  {
    var r := Transformations(o);
    TransformationsShape(o);
    assert forall i :: 0 <= i < |r| ==> |r[i]| >= 1;
    assert forall i :: 0 <= i < |r| ==> r[i][0] != 'w' ==> !StartsWith(r[i], ['w', '_']);
    assert forall i :: 0 <= i < |r| ==> r[i][0] != 'h' ==> !StartsWith(r[i], ['h', '_']);
    if Truthy(o.width) {
      var t := WidthToken(o.width.value);
      assert t[2..] == IntToString(o.width.value) && StartsWith(t, ['w', '_']);
      ParseIntOfIntToString(o.width.value);
      ReadSizeFindsFirst(r, 'w', 0);
    } else {
      ReadSizeFindsFirst(r, 'w', |r|);
    }
    var k := if Truthy(o.width) then 1 else 0;
    if Truthy(o.height) {
      var t := HeightToken(o.height.value);
      assert t[2..] == IntToString(o.height.value) && StartsWith(t, ['h', '_']);
      ParseIntOfIntToString(o.height.value);
      ReadSizeFindsFirst(r, 'h', k);
    } else {
      ReadSizeFindsFirst(r, 'h', |r|);
    }
  }

  /** The pieces a delivery URL is assembled from. */
  datatype UrlParts = UrlParts(transformations: seq<string>, publicId: string)

  /** Takes a delivery URL apart again: base, transformation list, folder, public id. */
  function ParseUrl(url: string): Option<UrlParts> {
    ParseUrlUnder(BaseUrl, Folder, url)
  }

  /** `ParseUrl` for any base and folder. */
  function ParseUrlUnder(base: string, folder: string, url: string): Option<UrlParts> {
    if !StartsWith(url, base + "/") then None else ParsePath(folder, url[|base| + 1..])
  }

  /** The part after the base: the list up to the first "/", then "/<folder>/", then the id. */
  function ParsePath(folder: string, rest: string): Option<UrlParts> {
    var t := Split(rest, '/')[0];
    var tail := rest[|t|..];
    if StartsWith(tail, "/" + folder + "/") then Some(UrlParts(Split(t, ','), tail[|folder| + 2..]))
    else None
  }

  /**
   * The URL always has the shape BASE/<list joined by ",">/memoir-gallery/<id>:
   * parsing it recovers exactly the transformation list and the public id.
   */
  lemma UrlRoundTrip(path: string, o: SizeOptions)
    ensures ParseUrl(Url(path, o)) == Some(UrlParts(Transformations(o), PublicId(path)))
  {
    var ts := Transformations(o);
    NotInJoin(ts, ',', '/');
    ParseAssembledUrl(Join(ts, ','), PublicId(path));
    SplitOfJoin(ts, ',');
  }

  /** Parsing an assembled URL whose list part has no "/" gives back the list part and the id. */
  lemma ParseAssembledUrl(j: string, id: string)
    requires '/' !in j
    ensures ParseUrl(BaseUrl + "/" + j + "/" + Folder + "/" + id) == Some(UrlParts(Split(j, ','), id))
  {
    ParseAssembledUrlUnder(BaseUrl, Folder, j, id);
  }

  lemma ParseAssembledUrlUnder(base: string, folder: string, j: string, id: string)
    requires '/' !in j
    ensures ParseUrlUnder(base, folder, base + "/" + j + "/" + folder + "/" + id) == Some(UrlParts(Split(j, ','), id))
  {
    var rest := j + "/" + folder + "/" + id;
    var url := base + "/" + j + "/" + folder + "/" + id;
    assert url == (base + "/") + rest;
    assert url[|base| + 1..] == rest;
    ParseAssembledPath(folder, j, id);
  }

  lemma ParseAssembledPath(folder: string, j: string, id: string)
    requires '/' !in j
    ensures ParsePath(folder, j + "/" + folder + "/" + id) == Some(UrlParts(Split(j, ','), id))
  {
    FirstPieceIsList(j, folder, id);
    TailAfterList(j, folder, id);
  }

  lemma FirstPieceIsList(j: string, folder: string, id: string)
    requires '/' !in j
    ensures Split(j + "/" + folder + "/" + id, '/')[0] == j
  {
    SplitAtFirstSeparator(j, folder + "/" + id, '/');
    assert j + "/" + folder + "/" + id == j + ['/'] + (folder + "/" + id);
  }

  lemma TailAfterList(j: string, folder: string, id: string)
    ensures var tail := (j + "/" + folder + "/" + id)[|j|..];
            StartsWith(tail, "/" + folder + "/") && tail[|folder| + 2..] == id
  {
    var tail := (j + "/" + folder + "/" + id)[|j|..];
    assert tail == "/" + folder + "/" + id;
  }

  /**
   * Two option sets give the same URL for a path iff they agree on the
   * truthy width and height; in particular `quality` and `format` never
   * affect the URL.
   */
  lemma UrlDependsOnlyOnSizes(path: string, o1: SizeOptions, o2: SizeOptions)
    ensures Url(path, o1) == Url(path, o2)
        <==> Normalize(o1.width) == Normalize(o2.width) && Normalize(o1.height) == Normalize(o2.height)
  {
    if Url(path, o1) == Url(path, o2) {
      UrlRoundTrip(path, o1);
      UrlRoundTrip(path, o2);
      SizesRoundTrip(o1);
      SizesRoundTrip(o2);
    }
    if Normalize(o1.width) == Normalize(o2.width) && Normalize(o1.height) == Normalize(o2.height) {
      assert Transformations(o1) == Transformations(o2);
    }
  }

  const ThumbnailOptions := SizeOptions(Some(400), Some(300), None, None)
  const MediumOptions := SizeOptions(Some(800), Some(600), None, None)
  const FullOptions := SizeOptions(Some(1200), None, None, None)

  lemma ThumbnailTransformations()
    ensures Transformations(ThumbnailOptions) == ["w_400", "h_300", "c_fill", "f_auto", "q_auto"]
  {
    assert NatToString(4) == "4" && NatToString(40) == "40" && NatToString(400) == "400";
    assert NatToString(3) == "3" && NatToString(30) == "30" && NatToString(300) == "300";
    assert WidthToken(400) == "w_400" && HeightToken(300) == "h_300";
  }

  lemma MediumTransformations()
    ensures Transformations(MediumOptions) == ["w_800", "h_600", "c_fill", "f_auto", "q_auto"]
  {
    assert NatToString(8) == "8" && NatToString(80) == "80" && NatToString(800) == "800";
    assert NatToString(6) == "6" && NatToString(60) == "60" && NatToString(600) == "600";
    assert WidthToken(800) == "w_800" && HeightToken(600) == "h_600";
  }

  lemma FullTransformations()
    ensures Transformations(FullOptions) == ["w_1200", "f_auto", "q_auto"]
  {
    assert NatToString(1) == "1" && NatToString(12) == "12" && NatToString(120) == "120";
    assert NatToString(1200) == "1200";
    assert WidthToken(1200) == "w_1200";
  }

  /** `getThumbnailUrl`: a 400 x 300 fill crop. */
  function ThumbnailUrl(path: string): (r: string)
    ensures ParseUrl(r) == Some(UrlParts(["w_400", "h_300", "c_fill", "f_auto", "q_auto"], PublicId(path)))
  {
    ThumbnailTransformations();
    UrlRoundTrip(path, ThumbnailOptions);
    Url(path, ThumbnailOptions)
  }

  /** `getMediumUrl`: an 800 x 600 fill crop. */
  function MediumUrl(path: string): (r: string)
    ensures ParseUrl(r) == Some(UrlParts(["w_800", "h_600", "c_fill", "f_auto", "q_auto"], PublicId(path)))
  {
    MediumTransformations();
    UrlRoundTrip(path, MediumOptions);
    Url(path, MediumOptions)
  }

  /** `getFullUrl`: width 1200 only, so no crop mode. */
  function FullUrl(path: string): (r: string)
    ensures ParseUrl(r) == Some(UrlParts(["w_1200", "f_auto", "q_auto"], PublicId(path)))
  {
    FullTransformations();
    UrlRoundTrip(path, FullOptions);
    Url(path, FullOptions)
  }

  /** A delivery URL is determined by what it parses to: different URLs never parse alike. */
  lemma ParseUrlInjective(u1: string, u2: string)
    requires ParseUrl(u1).Some? && ParseUrl(u1) == ParseUrl(u2)
    ensures u1 == u2
  {
    ParseUrlUnderInjective(BaseUrl, Folder, u1, u2);
  }

  lemma ParseUrlUnderInjective(base: string, folder: string, u1: string, u2: string)
    requires ParseUrlUnder(base, folder, u1).Some? && ParseUrlUnder(base, folder, u1) == ParseUrlUnder(base, folder, u2)
    ensures u1 == u2
  {
    var r1 := u1[|base| + 1..];
    var r2 := u2[|base| + 1..];
    ParsePathInjective(folder, r1, r2);
    assert u1 == u1[..|base| + 1] + r1;
    assert u2 == u2[..|base| + 1] + r2;
  }

  lemma ParsePathInjective(folder: string, r1: string, r2: string)
    requires ParsePath(folder, r1).Some? && ParsePath(folder, r1) == ParsePath(folder, r2)
    ensures r1 == r2
  {
    var t1 := Split(r1, '/')[0];
    var t2 := Split(r2, '/')[0];
    JoinOfSplit(t1, ',');
    JoinOfSplit(t2, ',');
    assert t1 == t2;
    var tail1 := r1[|t1|..];
    var tail2 := r2[|t2|..];
    assert tail1 == tail1[..|folder| + 2] + tail1[|folder| + 2..];
    assert tail2 == tail2[..|folder| + 2] + tail2[|folder| + 2..];
    assert r1 == t1 + tail1;
    assert r2 == t2 + tail2;
  }
}

=== FILE: floating_viewer.dfy ===
/**
 * The floating photo viewer's own state: its position, the drag in
 * progress, and the like toggle; plus the name a download is saved under.
 * Pointer coordinates arrive as events; nothing clamps the position.
 */
module FloatingViewer {
  import opened Text

  datatype Point = Point(x: int, y: int)

  function Add(p: Point, q: Point): Point {
    Point(p.x + q.x, p.y + q.y)
  }

  function Sub(p: Point, q: Point): Point {
    Point(p.x - q.x, p.y - q.y)
  }

  /** Where a mouse press lands: the viewer element itself, inside the drag handle (its buttons included), or elsewhere inside the viewer. */
  datatype PressTarget = ViewerRoot | InDragHandle | Elsewhere

  datatype ViewerState = ViewerState(position: Point, isDragging: bool, dragStart: Point, isLiked: bool)

  /** The viewer opens at (50, 50), not dragging, not liked. */
  const Initial: ViewerState := ViewerState(Point(50, 50), false, Point(0, 0), false)

  datatype ViewerEvent =
    | Press(target: PressTarget, at: Point)  // mousedown on the viewer
    | Move(at: Point)                        // mousemove on the document
    | Release                                // mouseup on the document
    | ToggleLike                             // the heart button

  /** A press drags only from the viewer itself or from within the drag handle. */
  predicate StartsDrag(target: PressTarget) {
    target == ViewerRoot || target == InDragHandle
  }

  function Step(s: ViewerState, e: ViewerEvent): (s': ViewerState)
    ensures e.Press? ==> (s'.isDragging <==> s.isDragging || StartsDrag(e.target))
    ensures e.Press? ==> s'.position == s.position && s'.isLiked == s.isLiked
    ensures e.Press? && StartsDrag(e.target) ==> s'.dragStart == e.at
    ensures e.Press? && !StartsDrag(e.target) ==> s' == s
    ensures e.Move? && !s.isDragging ==> s' == s
    ensures e.Move? && s.isDragging ==> Sub(s'.position, s.position) == Sub(e.at, s.dragStart) && s'.dragStart == e.at && s'.isDragging
    ensures e.Release? ==> !s'.isDragging && s'.position == s.position
    ensures !e.ToggleLike? ==> s'.isLiked == s.isLiked
    ensures e.ToggleLike? ==> s'.isLiked == !s.isLiked && s'.position == s.position && s'.isDragging == s.isDragging
  {
    match e
    case Press(target, at) =>
      if StartsDrag(target) then s.(isDragging := true, dragStart := at) else s
    case Move(at) =>
      if !s.isDragging then s
      else s.(position := Add(s.position, Sub(at, s.dragStart)), dragStart := at)
    case Release => s.(isDragging := false)
    case ToggleLike => s.(isLiked := !s.isLiked)
  }

  function Run(s: ViewerState, es: seq<ViewerEvent>): ViewerState
    decreases |es|
  {
    if |es| == 0 then s else Run(Step(s, es[0]), es[1..])
  }

  function Moves(ps: seq<Point>): (es: seq<ViewerEvent>)
    ensures |es| == |ps|
    ensures forall i :: 0 <= i < |ps| ==> es[i] == Move(ps[i])
  {
    seq(|ps|, i requires 0 <= i < |ps| => Move(ps[i]))
  }

  /**
   * The moves of one drag telescope: the viewer ends displaced by the last
   * pointer position minus the press point, whatever the path in between.
   */
  lemma {:induction false} MovesTelescope(s: ViewerState, ps: seq<Point>)
    requires s.isDragging && |ps| > 0
    ensures var r := Run(s, Moves(ps));
            && r.position == Add(s.position, Sub(ps[|ps| - 1], s.dragStart))
            && r.dragStart == ps[|ps| - 1]
            && r.isDragging && r.isLiked == s.isLiked
    decreases |ps|
  {
    var s1 := Step(s, Move(ps[0]));
    assert Moves(ps)[1..] == Moves(ps[1..]);
    if |ps| > 1 {
      MovesTelescope(s1, ps[1..]);
    } else {
      assert Moves(ps)[1..] == [];
    }
  }

  /** Moves with no drag in progress leave the viewer where it is. */
  lemma {:induction false} IdleMovesChangeNothing(s: ViewerState, ps: seq<Point>)
    requires !s.isDragging
    ensures Run(s, Moves(ps)) == s
    decreases |ps|
  {
    if |ps| > 0 {
      assert Moves(ps)[1..] == Moves(ps[1..]);
      IdleMovesChangeNothing(s, ps[1..]);
    }
  }

  lemma {:induction false} RunAppend(s: ViewerState, a: seq<ViewerEvent>, b: seq<ViewerEvent>)
    ensures Run(s, a + b) == Run(Run(s, a), b)
    decreases |a|
  {
    if |a| == 0 {
      assert a + b == b;
    } else {
      assert (a + b)[1..] == a[1..] + b;
      RunAppend(Step(s, a[0]), a[1..], b);
    }
  }

  /**
   * One whole drag, press on the handle, moves, release: the viewer lands
   * at its old position plus the pointer's total displacement, and the drag
   * is over.
   */
  lemma DragSession(s: ViewerState, target: PressTarget, start: Point, ps: seq<Point>)
    requires StartsDrag(target) && |ps| > 0
    ensures var r := Run(s, [Press(target, start)] + Moves(ps) + [Release]);
            r.position == Add(s.position, Sub(ps[|ps| - 1], start)) && !r.isDragging && r.isLiked == s.isLiked
  {
    var s1 := Step(s, Press(target, start));
    assert Run(s, [Press(target, start)]) == s1;
    RunAppend(s, [Press(target, start)], Moves(ps));
    MovesTelescope(s1, ps);
    RunAppend(s, [Press(target, start)] + Moves(ps), [Release]);
  }

  /**
   * Nothing clamps the position: from any drag in progress, one move can
   * put the viewer at any point at all, off screen included.
   */
  lemma AnyPositionReachable(s: ViewerState, target: Point)
    requires s.isDragging
    ensures Step(s, Move(Add(s.dragStart, Sub(target, s.position)))).position == target
  {
  }

  /** Liking twice restores the original state. */
  lemma ToggleLikeTwice(s: ViewerState)
    ensures Run(s, [ToggleLike, ToggleLike]) == s
  {
    assert [ToggleLike, ToggleLike][1..] == [ToggleLike];
  }

  /** The name a download is saved under: the photo's title with ".jpg". */
  function DownloadName(title: string): (name: string)
    ensures EndsWith(name, ".jpg")
    ensures name[..|name| - 4] == title
  {
    title + ".jpg"
  }

  /** The title back from a download name, if it has the ".jpg" suffix. */
  function TitleOf(name: string): Option<string> {
    if EndsWith(name, ".jpg") then Some(name[..|name| - 4]) else None
  }

  /** The download name determines the title: no two titles share a download name. */
  lemma DownloadNameRoundTrip(title: string)
    ensures TitleOf(DownloadName(title)) == Some(title)
  {
    assert DownloadName(title)[..|title|] == title;
  }
}

=== FILE: image_utils.dfy ===
/**
 * Network-aware prefetching: the connection-class settings table, the
 * staggered batch plan, the prefetch-hint cache (a set of completed URLs
 * plus a registry of hint elements attached to the document head), and the
 * selection of the first gallery thumbnails.
 *
 * Browser facilities are inputs: the connection information is a value,
 * hint elements are numbered links whose load, error and 30-second timeout
 * arrive as events, and a timer is an offset in milliseconds.
 */
module ImageUtils {
  import opened Text
  import opened PhotoGallery

  // ---------------------------------------------------------------------------
  // Settings by connection class
  // ---------------------------------------------------------------------------

  /** What `navigator.connection` offers: nothing, or a connection whose `effectiveType` may be unset. */
  datatype Connection = NoConnectionInfo | Connection(effectiveType: Option<string>)

  datatype PrefetchSettings = PrefetchSettings(shouldPrefetch: bool, maxPrefetch: nat, delay: nat)

  /** The full policy, used without connection information and for every type but "2g" and "3g". */
  const FullPolicy: PrefetchSettings := PrefetchSettings(true, 12, 200)

  /**
   * Prefetching is off exactly on "2g"; "3g" is reduced to 6 images 400 ms
   * apart; everything else, including missing connection information, gets
   * 12 images 200 ms apart.
   */
  function NetworkSettings(c: Connection): (r: PrefetchSettings)
    ensures !r.shouldPrefetch <==> c == Connection(Some("2g"))
    ensures r.shouldPrefetch <==> r.maxPrefetch > 0
    ensures r.shouldPrefetch <==> r.delay > 0
    ensures r.shouldPrefetch ==> r.delay == 200 || r.delay == 400
    ensures r.maxPrefetch <= 12
    ensures c == Connection(Some("3g")) ==> r.maxPrefetch == 6 && r.delay == 400
    ensures c != Connection(Some("2g")) && c != Connection(Some("3g")) ==> r == FullPolicy
  {
    match c
    case NoConnectionInfo => FullPolicy
    case Connection(t) =>
      if t == Some("2g") then PrefetchSettings(false, 0, 0)
      else if t == Some("3g") then PrefetchSettings(true, 6, 400)
      else FullPolicy
  }

  // ---------------------------------------------------------------------------
  // Slicing
  // ---------------------------------------------------------------------------

  /** Where `xs.slice(0, end)` stops on a list of length `len`: a negative end counts from the back. */
  function SliceEnd(len: nat, end: int): (r: nat)
    ensures r <= len
    ensures end >= 0 ==> r == if end < len then end else len
    ensures end < 0 ==> r == if len + end > 0 then len + end else 0
  {
    if end < 0 then (if len + end > 0 then len + end else 0)
    else if end < len then end else len
  }

  /** The default `count` of `getTopGalleryImages`. */
  const DefaultTopCount: int := 8

  /** `galleryData.slice(0, count).map(photo => photo.thumbnail)` */
  function TopGalleryImages(data: seq<Photo>, count: int): (r: seq<string>)
    ensures |r| == SliceEnd(|data|, count)
    ensures forall i :: 0 <= i < |r| ==> r[i] == data[i].thumbnail
  {
    var n := SliceEnd(|data|, count);
    seq(n, i requires 0 <= i < n => data[i].thumbnail)
  }

  // ---------------------------------------------------------------------------
  // The batch plan
  // ---------------------------------------------------------------------------

  /**
   * A call `prefetchImages(urls, staggerDelay)` as a hook issues it. The
   * call schedules its timers and returns at once; it has no failure path
   * of its own.
   */
  datatype BatchRequest = BatchRequest(urls: seq<string>, staggerDelay: int)

  /** One timer: prefetch `url` after `offset` milliseconds. */
  datatype Scheduled = Scheduled(url: string, offset: int)

  /**
   * `prefetchImages(urls, staggerDelay)` under connection `c`: nothing when
   * prefetching is off; otherwise the first `maxPrefetch` URLs in order,
   * item `i` at `i * (delay || staggerDelay)`.
   */
  method PrefetchImages(urls: seq<string>, c: Connection, staggerDelay: int) returns (plan: seq<Scheduled>)
    ensures !NetworkSettings(c).shouldPrefetch ==> plan == []
    ensures NetworkSettings(c).shouldPrefetch ==>
              |plan| == if NetworkSettings(c).maxPrefetch < |urls| then NetworkSettings(c).maxPrefetch else |urls|
    ensures |plan| <= |urls|
    ensures forall i :: 0 <= i < |plan| ==> plan[i].url == urls[i]
    ensures forall i :: 0 <= i < |plan| ==> plan[i].offset == i * NetworkSettings(c).delay
  {
    var settings := NetworkSettings(c);
    if !settings.shouldPrefetch {
      return [];
    }
    var toProcess := urls[..SliceEnd(|urls|, settings.maxPrefetch)];
    var step := if settings.delay != 0 then settings.delay else staggerDelay;
    plan := [];
    var i := 0;
    while i < |toProcess|
      invariant 0 <= i <= |toProcess|
      invariant |plan| == i
      invariant forall j :: 0 <= j < i ==> plan[j] == Scheduled(toProcess[j], j * step)
    {
      plan := plan + [Scheduled(toProcess[i], i * step)];
      i := i + 1;
    }
  }

  /** On 3g a batch never goes past the sixth URL, whatever the input. */
  method ReducedBatchIsBounded(urls: seq<string>, staggerDelay: int) returns (plan: seq<Scheduled>)
    ensures |plan| <= 6 && |plan| <= |urls|
    ensures forall i :: 0 <= i < |plan| ==> plan[i].url == urls[i] && plan[i].offset == 400 * i
  {
    plan := PrefetchImages(urls, Connection(Some("3g")), staggerDelay);
  }

  // ---------------------------------------------------------------------------
  // The hint cache
  // ---------------------------------------------------------------------------

  /**
   * The module-level state: URLs whose hint has loaded, the registry from
   * URL to the hint element last created for it, the hint elements
   * currently attached to the document head, the next fresh element, and
   * the URLs a hint element was ever created for (only those can load).
   */
  datatype HintCache = HintCache(completed: set<string>, registry: map<string, nat>, attached: set<nat>, nextLink: nat, hinted: set<string>)

  const EmptyCache: HintCache := HintCache({}, map[], {}, 0, {})

  /**
   * Every registry entry's element is attached, distinct URLs have distinct
   * elements, and every attached element was created.
   */
  ghost predicate Valid(c: HintCache) {
    && (forall u :: u in c.registry ==> c.registry[u] in c.attached)
    && (forall u, v :: u in c.registry && v in c.registry && u != v ==> c.registry[u] != c.registry[v])
    && (forall l :: l in c.attached ==> l < c.nextLink)
  }

  /** `isImageCached` */
  predicate IsImageCached(c: HintCache, url: string) {
    url in c.completed
  }

  /** What a `prefetchImage` call leaves pending. */
  datatype PrefetchStart = AlreadyCached | HintAttached(link: nat)

  /**
   * `prefetchImage(url)`: a completed URL resolves at once and changes
   * nothing; otherwise a fresh hint element is attached and registered
   * under the URL, replacing any earlier registration.
   */
  function PrefetchImage(c: HintCache, url: string): (r: (HintCache, PrefetchStart))
    ensures IsImageCached(c, url) ==> r == (c, AlreadyCached)
    ensures !IsImageCached(c, url) ==>
              && r.1.HintAttached?
              && r.0.completed == c.completed
              && r.0.registry == c.registry[url := r.1.link]
              && r.0.attached == c.attached + {r.1.link}
              && r.1.link == c.nextLink && r.0.nextLink == c.nextLink + 1
              && r.0.hinted == c.hinted + {url}
    ensures Valid(c) && !IsImageCached(c, url) ==> r.1.link !in c.attached
    ensures Valid(c) ==> Valid(r.0)
  {
    if url in c.completed then (c, AlreadyCached)
    else
      var link := c.nextLink;
      (HintCache(c.completed, c.registry[url := link], c.attached + {link}, link + 1, c.hinted + {url}), HintAttached(link))
  }

  /** The hint's `onload`: the URL joins the completed set and the promise resolves. */
  function OnHintLoad(c: HintCache, url: string): (c': HintCache)
    ensures IsImageCached(c', url)
    ensures forall u :: u != url ==> (IsImageCached(c', u) <==> IsImageCached(c, u))
    ensures c'.registry == c.registry && c'.attached == c.attached && c'.nextLink == c.nextLink && c'.hinted == c.hinted
    ensures Valid(c) ==> Valid(c')
  {
    c.(completed := c.completed + {url})
  }

  /**
   * `cleanupPrefetchLink(url)`: the registered element is detached and the
   * entry deleted, but only if there is an entry and its element is attached.
   */
  function CleanupPrefetchLink(c: HintCache, url: string): (c': HintCache)
    ensures url in c.registry && c.registry[url] in c.attached ==>
              && c'.registry == c.registry - {url}
              && c'.attached == c.attached - {c.registry[url]}
    ensures !(url in c.registry && c.registry[url] in c.attached) ==> c' == c
    ensures c'.completed == c.completed && c'.nextLink == c.nextLink && c'.hinted == c.hinted
    ensures Valid(c) ==> Valid(c')
  {
    if url in c.registry && c.registry[url] in c.attached then
      c.(registry := c.registry - {url}, attached := c.attached - {c.registry[url]})
    else c
  }

  /**
   * `clearPrefetchCache()`: the completed set is emptied and every
   * registered URL is cleaned up in turn.
   */
  method ClearPrefetchCache(c: HintCache) returns (c': HintCache)
    ensures forall u :: !IsImageCached(c', u)
    ensures c'.nextLink == c.nextLink && c'.hinted == c.hinted
    ensures Valid(c) ==> c'.registry == map[] && c'.attached == c.attached - c.registry.Values
    ensures Valid(c) ==> Valid(c')
  {
    c' := c.(completed := {});
    var pending := c.registry.Keys;
    while pending != {}
      invariant pending <= c.registry.Keys
      invariant c'.completed == {} && c'.nextLink == c.nextLink && c'.hinted == c.hinted
      invariant Valid(c) ==> Valid(c')
      invariant Valid(c) ==> c'.registry.Keys == pending
      invariant Valid(c) ==> forall u :: u in c'.registry ==> c'.registry[u] == c.registry[u]
      invariant Valid(c) ==> c'.attached == c.attached - (set u | u in c.registry && u !in pending :: c.registry[u])
      decreases pending
    {
      var u :| u in pending;
      c' := CleanupPrefetchLink(c', u);
      pending := pending - {u};
    }
    if Valid(c) {
      assert (set u | u in c.registry && u !in pending :: c.registry[u]) == c.registry.Values by {
        forall l | l in c.registry.Values ensures l in (set u | u in c.registry :: c.registry[u]) {
          var u :| u in c.registry && c.registry[u] == l;
        }
      }
    }
  }

  /** The events the cache sees. */
  datatype CacheEvent =
    | Prefetch(url: string)     // a prefetchImage call
    | HintLoaded(url: string)   // a hint's onload; only a URL that was given a hint can load
    | HintFailed(url: string)   // a hint's onerror: the promise rejects
    | TimedOut(url: string)     // the 30-second cleanup timer

  function Step(c: HintCache, e: CacheEvent): HintCache {
    match e
    case Prefetch(u) => PrefetchImage(c, u).0
    case HintLoaded(u) => if u in c.hinted then OnHintLoad(c, u) else c
    case HintFailed(_) => c
    case TimedOut(u) => CleanupPrefetchLink(c, u)
  }

  function Run(c: HintCache, es: seq<CacheEvent>): HintCache
    decreases |es|
  {
    if |es| == 0 then c else Run(Step(c, es[0]), es[1..])
  }

  /** Every reachable cache keeps the registry invariant. */
  lemma {:induction false} RunKeepsValid(c: HintCache, es: seq<CacheEvent>)
    requires Valid(c)
    ensures Valid(Run(c, es))
    decreases |es|
  {
    if |es| > 0 {
      RunKeepsValid(Step(c, es[0]), es[1..]);
    }
  }

  /**
   * A URL enters the completed set only through a load of a hint created
   * for it earlier; a failure never adds it.
   */
  lemma {:induction false} CompletedOnlyOnLoad(c: HintCache, es: seq<CacheEvent>, url: string)
    requires IsImageCached(Run(c, es), url) && !IsImageCached(c, url)
    ensures exists i :: 0 <= i < |es| && es[i] == HintLoaded(url) && url in Run(c, es[..i]).hinted
    decreases |es|
  {
    var c1 := Step(c, es[0]);
    if IsImageCached(c1, url) {
      assert es[..0] == [];
      assert es[0] == HintLoaded(url) && url in Run(c, es[..0]).hinted;
    } else {
      CompletedOnlyOnLoad(c1, es[1..], url);
      var i :| 0 <= i < |es[1..]| && es[1..][i] == HintLoaded(url) && url in Run(c1, es[1..][..i]).hinted;
      RunPrefix(c, es, i);
      assert es[i + 1] == HintLoaded(url) && url in Run(c, es[..i + 1]).hinted;
    }
  }

  lemma RunPrefix(c: HintCache, es: seq<CacheEvent>, i: nat)
    requires i < |es|
    ensures Run(c, es[..i + 1]) == Run(Step(c, es[0]), es[1..][..i])
  {
    assert es[..i + 1][0] == es[0];
    assert es[..i + 1][1..] == es[1..][..i];
  }

  /**
   * `isImageCached` after a run: a URL not cached at the start is cached at
   * the end exactly when, at some point, its hint had been created and then
   * loaded.
   */
  lemma CachedIffLoaded(c: HintCache, es: seq<CacheEvent>, url: string)
    requires !IsImageCached(c, url)
    ensures IsImageCached(Run(c, es), url) <==>
              exists i :: 0 <= i < |es| && es[i] == HintLoaded(url) && url in Run(c, es[..i]).hinted
  {
    if IsImageCached(Run(c, es), url) {
      CompletedOnlyOnLoad(c, es, url);
    }
    if exists i :: 0 <= i < |es| && es[i] == HintLoaded(url) && url in Run(c, es[..i]).hinted {
      var i :| 0 <= i < |es| && es[i] == HintLoaded(url) && url in Run(c, es[..i]).hinted;
      var before := Run(c, es[..i]);
      var tail := es[i..];
      assert es == es[..i] + tail;
      RunAppend(c, es[..i], tail);
      assert tail[0] == es[i] && tail[1..] == es[i + 1..];
      assert url in Step(before, es[i]).completed;
      CompletedOnlyGrows(Step(before, es[i]), es[i + 1..]);
    }
  }

  lemma {:induction false} RunAppend(c: HintCache, a: seq<CacheEvent>, b: seq<CacheEvent>)
    ensures Run(c, a + b) == Run(Run(c, a), b)
    decreases |a|
  {
    if |a| == 0 {
      assert a + b == b;
    } else {
      assert (a + b)[0] == a[0];
      assert (a + b)[1..] == a[1..] + b;
      RunAppend(Step(c, a[0]), a[1..], b);
    }
  }

  /** Starting from the empty cache, every completed URL was given a hint at some point. */
  lemma {:induction false} CompletedWereHinted(c: HintCache, es: seq<CacheEvent>)
    requires c.completed <= c.hinted
    ensures Run(c, es).completed <= Run(c, es).hinted
    ensures c.hinted <= Run(c, es).hinted
    decreases |es|
  {
    if |es| > 0 {
      CompletedWereHinted(Step(c, es[0]), es[1..]);
    }
  }

  /** The completed set only grows: nothing but clearing removes a URL from it. */
  lemma {:induction false} CompletedOnlyGrows(c: HintCache, es: seq<CacheEvent>)
    ensures c.completed <= Run(c, es).completed
    decreases |es|
  {
    if |es| > 0 {
      CompletedOnlyGrows(Step(c, es[0]), es[1..]);
    }
  }

  /**
   * The registry keeps only the latest hint per URL: prefetching a URL again
   * while its first hint is pending re-registers the URL, and after both
   * cleanup timers have fired the first hint is still attached, with no
   * registry entry left to remove it.
   */
  lemma OverwrittenHintStaysAttached(c: HintCache, url: string)
    requires !IsImageCached(c, url)
    requires forall u :: u in c.registry ==> c.registry[u] < c.nextLink
    requires forall l :: l in c.attached ==> l < c.nextLink
    ensures var first := c.nextLink;
            var c' := Run(c, [Prefetch(url), Prefetch(url), TimedOut(url), TimedOut(url)]);
            && first in c'.attached
            && url !in c'.registry
            && first !in c'.registry.Values
  {
    var es := [Prefetch(url), Prefetch(url), TimedOut(url), TimedOut(url)];
    var n := c.nextLink;
    var c1 := PrefetchImage(c, url).0;
    var c2 := PrefetchImage(c1, url).0;
    var c3 := CleanupPrefetchLink(c2, url);
    var c4 := CleanupPrefetchLink(c3, url);
    RunFourSteps(c, es);
    TwoPrefetches(c, url);
    assert c3.registry == c.registry - {url};
    assert c3.attached == c.attached + {n};
    assert c4 == c3;
    assert n !in c3.registry.Values;
  }

  /** The second prefetch of a pending URL registers the second fresh hint and keeps the first attached. */
  lemma TwoPrefetches(c: HintCache, url: string)
    requires !IsImageCached(c, url)
    ensures var c2 := PrefetchImage(PrefetchImage(c, url).0, url).0;
            && c2.registry == c.registry[url := c.nextLink + 1]
            && c2.attached == c.attached + {c.nextLink, c.nextLink + 1}
  {
    var n := c.nextLink;
    var c1 := PrefetchImage(c, url).0;
    assert c1.registry == c.registry[url := n] && c1.attached == c.attached + {n} && c1.nextLink == n + 1;
    assert c.registry[url := n][url := n + 1] == c.registry[url := n + 1];
  }

  lemma RunFourSteps(c: HintCache, es: seq<CacheEvent>)
    requires |es| == 4
    ensures Run(c, es) == Step(Step(Step(Step(c, es[0]), es[1]), es[2]), es[3])
  {
    var c1 := Step(c, es[0]);
    var c2 := Step(c1, es[1]);
    var c3 := Step(c2, es[2]);
    var c4 := Step(c3, es[3]);
    assert es[1..][1..] == es[2..] && es[2..][1..] == es[3..] && es[3..][1..] == [];
    assert Run(c3, es[3..]) == c4;
    assert Run(c2, es[2..]) == c4;
    assert Run(c1, es[1..]) == c4;
  }

  // ---------------------------------------------------------------------------
  // Running a plan
  // ---------------------------------------------------------------------------

  /** How one scheduled prefetch ended. */
  datatype ItemResult = ResolvedCached | ResolvedLoaded | RejectedCaught

  /**
   * Fires the plan's timers in order; each item's hint then loads or fails
   * as `loads` says. A rejection is caught per item, so every item is
   * attempted, and exactly the loaded URLs join the completed set.
   */
  method RunPlan(c: HintCache, plan: seq<Scheduled>, loads: seq<bool>) returns (c': HintCache, results: seq<ItemResult>)
    requires |loads| == |plan|
    ensures |results| == |plan|
    ensures c'.completed == c.completed + (set i | 0 <= i < |plan| && loads[i] :: plan[i].url)
    ensures forall i :: 0 <= i < |plan| ==>
              (results[i] == RejectedCaught <==> !loads[i] && plan[i].url !in c.completed + (set j | 0 <= j < i && loads[j] :: plan[j].url))
    ensures Valid(c) ==> Valid(c')
  {
    c' := c;
    results := [];
    var i := 0;
    while i < |plan|
      invariant 0 <= i <= |plan|
      invariant |results| == i
      invariant c'.completed == c.completed + (set j | 0 <= j < i && loads[j] :: plan[j].url)
      invariant forall k :: 0 <= k < i ==>
                  (results[k] == RejectedCaught <==> !loads[k] && plan[k].url !in c.completed + (set j | 0 <= j < k && loads[j] :: plan[j].url))
      invariant Valid(c) ==> Valid(c')
    {
      var url := plan[i].url;
      var (started, start) := PrefetchImage(c', url);
      var r;
      if start == AlreadyCached {
        r := ResolvedCached;
        if loads[i] {
          assert url in c'.completed;
        }
        c' := started;
      } else if loads[i] {
        r := ResolvedLoaded;
        c' := OnHintLoad(started, url);
      } else {
        r := RejectedCaught;
        c' := started;
      }
      assert (set j | 0 <= j < i + 1 && loads[j] :: plan[j].url)
          == (set j | 0 <= j < i && loads[j] :: plan[j].url) + (if loads[i] then {url} else {});
      results := results + [r];
      i := i + 1;
    }
  }
}

=== FILE: near_view_prefetch.dfy ===
/**
 * The near-view prefetch trigger: an intersection observer with an
 * expanded root margin, installed only while there is a target, the latch
 * is unset and there is data, whose callback starts one batch for the first
 * intersecting entry and none after.
 */
module NearViewPrefetch {
  import opened Text
  import opened PhotoGallery
  import opened Cloudinary
  import opened ImageUtils
  import SmartPrefetch

  datatype Options = Options(threshold: int, maxImages: int)

  /** 200 px before the target is visible, 12 images. */
  const DefaultOptions: Options := Options(200, 12)

  /** The stagger this hook passes to `prefetchImages`. */
  const StaggerDelay: int := 150

  /**
   * The hook's state: the data the current observer closes over, whether an
   * observer is installed, the latch, and the two flags.
   */
  datatype NearState = NearState(gallery: seq<Photo>, observing: bool, triggered: bool, isPrefetching: bool, prefetched: bool)

  function Initial(): NearState {
    NearState([], false, false, false, false)
  }

  /** The effect installs an observer only with a target, an unset latch and some data. */
  predicate ShouldObserve(targetPresent: bool, triggered: bool, gallery: seq<Photo>) {
    targetPresent && !triggered && |gallery| > 0
  }

  /** `rootMargin`: the threshold above and below the viewport, nothing to the sides. */
  function RootMargin(threshold: int): (m: string)
    ensures var px := IntToString(threshold) + "px";
            Split(m, ' ') == [px, "0px", px, "0px"]
  {
    MarginParts(IntToString(threshold));
    IntToString(threshold) + "px 0px " + IntToString(threshold) + "px 0px"
  }

  /** A length in pixels, `<n>px`. */
  function PxValue(part: string): Option<int> {
    if EndsWith(part, "px") then ParseInt(part[..|part| - 2]) else None
  }

  /** The four margins of a `rootMargin` string, top, right, bottom, left, in pixels. */
  function MarginValues(m: string): Option<seq<int>> {
    var parts := Split(m, ' ');
    if |parts| != 4 then None
    else
      match (PxValue(parts[0]), PxValue(parts[1]), PxValue(parts[2]), PxValue(parts[3]))
      case (Some(top), Some(right), Some(bottom), Some(left)) => Some([top, right, bottom, left])
      case _ => None
  }

  lemma RootMarginValues(threshold: int)
    ensures MarginValues(RootMargin(threshold)) == Some([threshold, 0, threshold, 0])
  {
    PxValueOf(threshold);
    PxValueOf(0);
    assert IntToString(0) + "px" == "0px";
  }

  /** A margin string built around a space-free number splits at spaces into its four lengths. */
  lemma MarginParts(t: string)
    requires ' ' !in t
    ensures Split(t + "px 0px " + t + "px 0px", ' ') == [t + "px", "0px", t + "px", "0px"]
  {
    var px := t + "px";
    var parts := [px, "0px", px, "0px"];
    assert "px 0px " == "px" + " " + "0px" + " ";
    assert "px 0px" == "px" + " " + "0px";
    JoinFour(px, "0px", px, "0px", ' ');
    assert t + "px 0px " + t + "px 0px" == Join(parts, ' ');
    forall i | 0 <= i < 4 ensures ' ' !in parts[i] {
      assert ' ' !in t;
    }
    SplitOfJoin(parts, ' ');
  }

  lemma JoinFour(a: string, b: string, c: string, d: string, sep: char)
    ensures Join([a, b, c, d], sep) == a + [sep] + b + [sep] + c + [sep] + d
  {
    var parts := [a, b, c, d];
    assert parts[1..] == [b, c, d] && parts[1..][1..] == [c, d] && parts[1..][1..][1..] == [d];
    assert Join([c, d], sep) == c + [sep] + d;
    assert Join([b, c, d], sep) == b + [sep] + (c + [sep] + d);
  }

  /** `${n}px` reads back as `n`. */
  lemma PxValueOf(n: int)
    ensures PxValue(IntToString(n) + "px") == Some(n)
  {
    var px := IntToString(n) + "px";
    assert px[..|px| - 2] == IntToString(n);
    assert px[|px| - 2..] == "px";
    ParseIntOfIntToString(n);
  }

  /**
   * The URLs of one batch: the thumbnail URL of each of the first
   * `maxImages` photos, in gallery order.
   */
  function Batch(gallery: seq<Photo>, maxImages: int): (urls: seq<string>)
    ensures |urls| == SliceEnd(|gallery|, maxImages)
    ensures forall i :: 0 <= i < |urls| ==> urls[i] == ThumbnailUrl(gallery[i].thumbnail)
  {
    var n := SliceEnd(|gallery|, maxImages);
    seq(n, i requires 0 <= i < n => ThumbnailUrl(gallery[i].thumbnail))
  }

  /** Both triggers pick the same URLs for the same count. */
  lemma SameBatchAsSmartPrefetch(gallery: seq<Photo>, maxImages: int)
    ensures Batch(gallery, maxImages) == SmartPrefetch.Batch(gallery, maxImages)
  {
    var n := SliceEnd(|gallery|, maxImages);
    assert |TopGalleryImages(gallery, maxImages)| == n;
  }

  /** One intersection entry: only an intersecting entry with the latch unset starts a batch. */
  function OnEntry(s: NearState, maxImages: int, intersecting: bool): (r: (NearState, seq<BatchRequest>))
    ensures |r.1| <= 1
    ensures |r.1| == 1 <==> intersecting && !s.triggered
  {
    if intersecting && !s.triggered then
      (s.(triggered := true, isPrefetching := true), [BatchRequest(Batch(s.gallery, maxImages), StaggerDelay)])
    else (s, [])
  }

  /**
   * The observer callback over one list of entries, in order. The latch is
   * set as soon as a batch starts, so several intersecting entries in one
   * callback still start at most one.
   */
  function OnIntersection(s: NearState, maxImages: int, entries: seq<bool>): (r: (NearState, seq<BatchRequest>))
    ensures |r.1| <= 1
    ensures |r.1| == 1 <==> !s.triggered && true in entries
    ensures r.0.triggered <==> s.triggered || true in entries
    ensures forall b :: b in r.1 ==> b == BatchRequest(Batch(s.gallery, maxImages), StaggerDelay)
    ensures r.0.gallery == s.gallery && r.0.observing == s.observing && r.0.prefetched == s.prefetched
    ensures r.0.isPrefetching <==> s.isPrefetching || |r.1| == 1
    decreases |entries|
  {
    if |entries| == 0 then (s, [])
    else
      var (s1, b1) := OnEntry(s, maxImages, entries[0]);
      var (s2, b2) := OnIntersection(s1, maxImages, entries[1..]);
      assert true in entries <==> entries[0] || true in entries[1..] by {
        assert entries == [entries[0]] + entries[1..];
      }
      (s2, b1 + b2)
  }

  datatype NearEvent =
    | EffectRan(gallery: seq<Photo>, targetPresent: bool)  // mount, or a change of data or options
    | Intersected(entries: seq<bool>)                      // the observer's callback
    | Settled(resolved: bool)                              // the batch promise resolved or rejected; ignored with none in flight

  function Step(s: NearState, opts: Options, e: NearEvent): (r: (NearState, seq<BatchRequest>))
    ensures e.EffectRan? ==> r == (s.(gallery := e.gallery, observing := ShouldObserve(e.targetPresent, s.triggered, e.gallery)), [])
    ensures e.Intersected? && s.observing ==> r == OnIntersection(s, opts.maxImages, e.entries)
    ensures e.Intersected? && !s.observing ==> r == (s, [])
    ensures e.Settled? ==> r.1 == [] && !r.0.isPrefetching && (r.0.prefetched <==> s.prefetched || (s.isPrefetching && e.resolved))
    ensures e.Settled? && !s.isPrefetching ==> r == (s, [])
    ensures e.Settled? && s.isPrefetching ==> r.0 == s.(prefetched := s.prefetched || e.resolved, isPrefetching := false)
    ensures !e.EffectRan? ==> r.0.gallery == s.gallery
    ensures r.0.triggered == s.triggered || (|r.1| == 1 && !s.triggered)
    ensures |r.1| <= (if s.triggered then 0 else 1)
  {
    match e
    case EffectRan(g, target) =>
      // the previous observer is disconnected; a new one only if the guard allows
      (s.(gallery := g, observing := ShouldObserve(target, s.triggered, g)), [])
    case Intersected(entries) =>
      if s.observing then OnIntersection(s, opts.maxImages, entries) else (s, [])
    case Settled(ok) =>
      // only the batch in flight settles
      if !s.isPrefetching then (s, [])
      else (s.(prefetched := s.prefetched || ok, isPrefetching := false), [])
  }

  function Run(s: NearState, opts: Options, es: seq<NearEvent>): (NearState, seq<BatchRequest>)
    decreases |es|
  {
    if |es| == 0 then (s, [])
    else
      var (s1, b) := Step(s, opts, es[0]);
      var (s2, bs) := Run(s1, opts, es[1..]);
      (s2, b + bs)
  }

  /** The data of the latest effect run among the events, or `g` when the effect never ran. */
  function LatestGallery(g: seq<Photo>, es: seq<NearEvent>): seq<Photo>
    decreases |es|
  {
    if |es| == 0 then g
    else if es[|es| - 1].EffectRan? then es[|es| - 1].gallery
    else LatestGallery(g, es[..|es| - 1])
  }

  lemma {:induction false} RunSnoc(s: NearState, opts: Options, es: seq<NearEvent>, e: NearEvent)
    ensures Run(s, opts, es + [e]).0 == Step(Run(s, opts, es).0, opts, e).0
    ensures Run(s, opts, es + [e]).1 == Run(s, opts, es).1 + Step(Run(s, opts, es).0, opts, e).1
    decreases |es|
  {
    if |es| == 0 {
      assert es + [e] == [e];
      assert [e][1..] == [];
    } else {
      assert (es + [e])[0] == es[0];
      assert (es + [e])[1..] == es[1..] + [e];
      RunSnoc(Step(s, opts, es[0]).0, opts, es[1..], e);
    }
  }

  /** The observer closes over the data of the latest effect run. */
  lemma {:induction false} GalleryIsLatestData(s: NearState, opts: Options, es: seq<NearEvent>)
    ensures Run(s, opts, es).0.gallery == LatestGallery(s.gallery, es)
    decreases |es|
  {
    if |es| > 0 {
      var p := es[..|es| - 1];
      assert es == p + [es[|es| - 1]];
      RunSnoc(s, opts, p, es[|es| - 1]);
      GalleryIsLatestData(s, opts, p);
    }
  }

  /**
   * Only the observer's callback starts a batch, and a batch it starts is
   * the first thumbnails of the data of the latest effect run, at stagger 150.
   */
  lemma BatchIsLatestData(s: NearState, opts: Options, es: seq<NearEvent>, entries: seq<bool>)
    ensures forall b :: b in Step(Run(s, opts, es).0, opts, Intersected(entries)).1 ==>
              b == BatchRequest(Batch(LatestGallery(s.gallery, es), opts.maxImages), StaggerDelay)
  {
    GalleryIsLatestData(s, opts, es);
  }

  /** At most one batch per instance, whatever the observer reports. */
  lemma {:induction false} AtMostOneBatch(s: NearState, opts: Options, es: seq<NearEvent>)
    ensures |Run(s, opts, es).1| <= (if s.triggered then 0 else 1)
    ensures Run(s, opts, es).0.triggered <==> s.triggered || |Run(s, opts, es).1| == 1
    decreases |es|
  {
    if |es| > 0 {
      var (s1, b) := Step(s, opts, es[0]);
      AtMostOneBatch(s1, opts, es[1..]);
    }
  }

  /** Without an installed observer, and before the effect runs again, nothing starts. */
  lemma {:induction false} NoObserverNoBatch(s: NearState, opts: Options, es: seq<NearEvent>)
    requires !s.observing
    requires forall i :: 0 <= i < |es| ==> !es[i].EffectRan?
    ensures Run(s, opts, es).1 == []
    ensures Run(s, opts, es).0.triggered == s.triggered
    decreases |es|
  {
    if |es| > 0 {
      var (s1, b) := Step(s, opts, es[0]);
      NoObserverNoBatch(s1, opts, es[1..]);
    }
  }

  /** `prefetched` only becomes true when a batch in flight resolves. */
  lemma {:induction false} PrefetchedOnlyOnSuccess(s: NearState, opts: Options, es: seq<NearEvent>)
    requires Run(s, opts, es).0.prefetched && !s.prefetched
    ensures exists i :: 0 <= i < |es| && es[i] == Settled(true) && Run(s, opts, es[..i]).0.isPrefetching
    decreases |es|
  {
    var (s1, b) := Step(s, opts, es[0]);
    if s1.prefetched {
      assert es[..0] == [];
      assert es[0] == Settled(true) && Run(s, opts, es[..0]).0.isPrefetching;
    } else {
      PrefetchedOnlyOnSuccess(s1, opts, es[1..]);
      var i :| 0 <= i < |es[1..]| && es[1..][i] == Settled(true) && Run(s1, opts, es[1..][..i]).0.isPrefetching;
      RunPrefix(s, opts, es, i);
      assert es[i + 1] == Settled(true) && Run(s, opts, es[..i + 1]).0.isPrefetching;
    }
  }

  lemma RunPrefix(s: NearState, opts: Options, es: seq<NearEvent>, i: nat)
    requires i < |es|
    ensures Run(s, opts, es[..i + 1]).0 == Run(Step(s, opts, es[0]).0, opts, es[1..][..i]).0
  {
    assert es[..i + 1][0] == es[0];
    assert es[..i + 1][1..] == es[1..][..i];
  }

  /** The hook's flags never run ahead of its latch. */
  predicate Latched(s: NearState) {
    (s.isPrefetching || s.prefetched) ==> s.triggered
  }

  lemma {:induction false} RunKeepsLatched(s: NearState, opts: Options, es: seq<NearEvent>)
    requires Latched(s)
    ensures Latched(Run(s, opts, es).0)
    decreases |es|
  {
    if |es| > 0 {
      RunKeepsLatched(Step(s, opts, es[0]).0, opts, es[1..]);
    }
  }

  /** From a fresh hook, `prefetched` is only ever set after the one batch was started. */
  lemma PrefetchedAfterBatch(opts: Options, es: seq<NearEvent>)
    ensures Run(Initial(), opts, es).0.prefetched ==> |Run(Initial(), opts, es).1| == 1
  {
    RunKeepsLatched(Initial(), opts, es);
    AtMostOneBatch(Initial(), opts, es);
  }
}

=== FILE: photo_gallery.dfy ===
/**
 * The gallery page's state: the photo list, the sort mode chosen with the
 * time slider, and the photo shown in the floating viewer. The list shown
 * is a sorted copy; the state itself is never reordered.
 */
module PhotoGallery {
  import opened Text

  /** A calendar date read from the "YYYY-MM-DD" field of a gallery entry. */
  datatype Date = Date(year: int, month: int, day: int)

  /** One gallery entry. */
  datatype Photo = Photo(
    id: int,
    title: string,
    filename: string,
    thumbnail: string,
    date: Date,
    tag: string,
    season: string,
    caption: string)

  datatype SortMode = ByDate | ByYear

  /** The sort mode the page starts in. */
  const DefaultSortMode: SortMode := ByDate

  /** `a` is not earlier than `b`: the order of `getTime()` on valid dates. */
  predicate NotEarlier(a: Date, b: Date) {
    a.year > b.year || (a.year == b.year && (a.month > b.month || (a.month == b.month && a.day >= b.day)))
  }

  /**
   * What the comparator looks at: the full date when sorting by date, only
   * the year when sorting by year (month and day are blanked out, so photos
   * of one year compare equal).
   */
  function SortKey(mode: SortMode, p: Photo): Date {
    match mode
    case ByDate => p.date
    case ByYear => Date(p.date.year, 0, 0)
  }

  /**
   * The sign of the comparator `(a, b) => time(b) - time(a)` (or
   * `yearB - yearA`): negative when `a` belongs first.
   */
  function Compare(mode: SortMode, a: Photo, b: Photo): (c: int)
    ensures c <= 0 <==> NotEarlier(SortKey(mode, a), SortKey(mode, b))
    ensures c == 0 <==> SortKey(mode, a) == SortKey(mode, b)
  {
    var ka := SortKey(mode, a);
    var kb := SortKey(mode, b);
    if ka == kb then 0 else if NotEarlier(ka, kb) then -1 else 1
  }

  /** Newest first: no photo is followed by a strictly newer one. */
  predicate Sorted(mode: SortMode, s: seq<Photo>) {
    forall i, j :: 0 <= i < j < |s| ==> Compare(mode, s[i], s[j]) <= 0
  }

  /** The photos of `s` whose sort key is `k`, in their order in `s`. */
  function WithKey(mode: SortMode, s: seq<Photo>, k: Date): seq<Photo>
    decreases |s|
  {
    if |s| == 0 then []
    else (if SortKey(mode, s[0]) == k then [s[0]] else []) + WithKey(mode, s[1..], k)
  }

  /**
   * Places `x` in front of the first photo that does not sort strictly
   * before it, so that `x` stays ahead of photos it compares equal to.
   */
  function Insert(mode: SortMode, x: Photo, t: seq<Photo>): (r: seq<Photo>)
    ensures multiset(r) == multiset([x] + t)
    decreases |t|
  {
    if |t| == 0 || Compare(mode, x, t[0]) <= 0 then [x] + t
    else
      assert t == [t[0]] + t[1..];
      [t[0]] + Insert(mode, x, t[1..])
  }

  lemma {:induction false} InsertKeepsSorted(mode: SortMode, x: Photo, t: seq<Photo>)
    requires Sorted(mode, t)
    ensures Sorted(mode, Insert(mode, x, t))
    decreases |t|
  {
    if |t| == 0 || Compare(mode, x, t[0]) <= 0 {
      var r := Insert(mode, x, t);
      assert r == [x] + t;
      forall j | 0 < j < |r| ensures Compare(mode, r[0], r[j]) <= 0 {
        assert r[j] == t[j - 1];
        NotEarlierTransitive(SortKey(mode, x), SortKey(mode, t[0]), SortKey(mode, t[j - 1]));
      }
      assert forall i, j :: 0 < i < j < |r| ==> r[i] == t[i - 1] && r[j] == t[j - 1];
    } else {
      InsertKeepsSorted(mode, x, t[1..]);
      HeadStaysFirst(mode, x, t);
    }
  }

  lemma NotEarlierTransitive(a: Date, b: Date, c: Date)
    requires NotEarlier(a, b) && NotEarlier(b, c)
    ensures NotEarlier(a, c)
  {
  }

  /** No photo of `s` sorts strictly before `a`. */
  predicate Dominates(mode: SortMode, a: Photo, s: seq<Photo>) {
    forall j :: 0 <= j < |s| ==> Compare(mode, a, s[j]) <= 0
  }

  lemma ConsSorted(mode: SortMode, a: Photo, s: seq<Photo>)
    requires Dominates(mode, a, s) && Sorted(mode, s)
    ensures Sorted(mode, [a] + s)
  {
    var r := [a] + s;
    assert forall i, j :: 0 < i < j < |r| ==> r[i] == s[i - 1] && r[j] == s[j - 1];
  }

  lemma DominatesPermutation(mode: SortMode, a: Photo, s: seq<Photo>, s': seq<Photo>)
    requires Dominates(mode, a, s) && multiset(s) == multiset(s')
    ensures Dominates(mode, a, s')
  {
    forall j | 0 <= j < |s'| ensures Compare(mode, a, s'[j]) <= 0 {
      assert s'[j] in multiset(s);
      var m :| 0 <= m < |s| && s[m] == s'[j];
    }
  }

  /** The step case: a strictly newer first photo stays ahead of everything after it. */
  lemma HeadStaysFirst(mode: SortMode, x: Photo, t: seq<Photo>)
    requires |t| > 0 && Compare(mode, x, t[0]) > 0
    requires Sorted(mode, t)
    requires Sorted(mode, Insert(mode, x, t[1..]))
    ensures Sorted(mode, Insert(mode, x, t))
  {
    var rest := Insert(mode, x, t[1..]);
    var s := [x] + t[1..];
    forall j | 0 <= j < |s| ensures Compare(mode, t[0], s[j]) <= 0 {
      if j > 0 {
        assert s[j] == t[j];
      }
    }
    DominatesPermutation(mode, t[0], s, rest);
    ConsSorted(mode, t[0], rest);
  }

  /** Insertion keeps `x` ahead of every photo with the same key, and their order. */
  lemma {:induction false} InsertWithKey(mode: SortMode, x: Photo, t: seq<Photo>, k: Date)
    ensures WithKey(mode, Insert(mode, x, t), k) == (if SortKey(mode, x) == k then [x] else []) + WithKey(mode, t, k)
    decreases |t|
  {
    var r := Insert(mode, x, t);
    var xs := if SortKey(mode, x) == k then [x] else [];
    if |t| == 0 || Compare(mode, x, t[0]) <= 0 {
      assert r == [x] + t;
      assert r[1..] == t;
    } else {
      InsertWithKey(mode, x, t[1..], k);
      InsertPastWithKey(mode, x, t, k);
    }
  }

  /** The step case: `x` moves past a strictly newer first photo, which has a different key. */
  lemma InsertPastWithKey(mode: SortMode, x: Photo, t: seq<Photo>, k: Date)
    requires |t| > 0 && Compare(mode, x, t[0]) > 0
    requires WithKey(mode, Insert(mode, x, t[1..]), k)
             == (if SortKey(mode, x) == k then [x] else []) + WithKey(mode, t[1..], k)
    ensures WithKey(mode, Insert(mode, x, t), k) == (if SortKey(mode, x) == k then [x] else []) + WithKey(mode, t, k)
  {
    var rest := Insert(mode, x, t[1..]);
    assert Insert(mode, x, t) == [t[0]] + rest;
    WithKeyCons(mode, t[0], rest, k);
    assert t == [t[0]] + t[1..];
    WithKeyCons(mode, t[0], t[1..], k);
    var xs := if SortKey(mode, x) == k then [x] else [];
    var ts := if SortKey(mode, t[0]) == k then [t[0]] else [];
    var w := WithKey(mode, t[1..], k);
    assert SortKey(mode, x) != SortKey(mode, t[0]);
    SwapEmpty(ts, xs, w);
  }

  /** Prepending two lists, one of them empty, in either order gives the same list. */
  lemma SwapEmpty<T>(a: seq<T>, b: seq<T>, w: seq<T>)
    requires a == [] || b == []
    ensures a + (b + w) == b + (a + w)
  {
    if a == [] {
      assert a + (b + w) == b + w;
      assert a + w == w;
    } else {
      assert b + w == w;
      assert b + (a + w) == a + w;
    }
  }

  /** The photos with key `k` in a list with a new head. */
  lemma WithKeyCons(mode: SortMode, a: Photo, s: seq<Photo>, k: Date)
    ensures WithKey(mode, [a] + s, k) == (if SortKey(mode, a) == k then [a] else []) + WithKey(mode, s, k)
  {
    assert ([a] + s)[0] == a;
    assert ([a] + s)[1..] == s;
  }

  /**
   * `[...photos].sort(comparator)` with JavaScript's stable sort: a newest-
   * first permutation of the input in which photos that compare equal keep
   * their input order.
   */
  function SortPhotos(mode: SortMode, s: seq<Photo>): (r: seq<Photo>)
    ensures multiset(r) == multiset(s)
    ensures Sorted(mode, r)
    ensures forall k :: WithKey(mode, r, k) == WithKey(mode, s, k)
    decreases |s|
  {
    if |s| == 0 then []
    else
      var sorted := SortPhotos(mode, s[1..]);
      assert s == [s[0]] + s[1..];
      InsertSortStep(mode, s[0], s[1..], sorted);
      Insert(mode, s[0], sorted)
  }

  /** One step of the insertion sort: inserting the head into the sorted tail sorts the whole list, stably. */
  lemma InsertSortStep(mode: SortMode, x: Photo, t: seq<Photo>, sorted: seq<Photo>)
    requires multiset(sorted) == multiset(t) && Sorted(mode, sorted)
    requires forall k :: WithKey(mode, sorted, k) == WithKey(mode, t, k)
    ensures multiset(Insert(mode, x, sorted)) == multiset([x] + t)
    ensures Sorted(mode, Insert(mode, x, sorted))
    ensures forall k :: WithKey(mode, Insert(mode, x, sorted), k) == WithKey(mode, [x] + t, k)
  {
    InsertKeepsSorted(mode, x, sorted);
    assert multiset([x] + sorted) == multiset([x] + t);
    forall k ensures WithKey(mode, Insert(mode, x, sorted), k) == WithKey(mode, [x] + t, k) {
      InsertWithKey(mode, x, sorted, k);
      WithKeyCons(mode, x, t, k);
    }
  }

  /** The page's state. */
  datatype GalleryState = GalleryState(photos: seq<Photo>, selected: Option<Photo>, sortBy: SortMode)

  const InitialGallery: GalleryState := GalleryState([], None, DefaultSortMode)

  /** What the page reacts to. */
  datatype GalleryEvent =
    | DataLoaded(data: seq<Photo>)   // the mount effect reading the gallery data
    | PhotoClicked(photo: Photo)     // handlePhotoClick
    | Navigated(photo: Photo)        // handleNavigate, which the viewer never calls
    | ViewerClosed                   // closeViewer
    | SortChosen(mode: SortMode)     // the time slider

  function Step(s: GalleryState, e: GalleryEvent): (s': GalleryState)
    ensures e.PhotoClicked? || e.Navigated? ==> s'.selected == Some(e.photo)
    ensures e.ViewerClosed? ==> s'.selected == None
    ensures e.DataLoaded? ==> s'.photos == e.data
    ensures e.SortChosen? ==> s'.sortBy == e.mode
    ensures !e.DataLoaded? ==> s'.photos == s.photos
    ensures !e.SortChosen? ==> s'.sortBy == s.sortBy
    ensures !(e.PhotoClicked? || e.Navigated? || e.ViewerClosed?) ==> s'.selected == s.selected
  {
    match e
    case DataLoaded(data) => s.(photos := data)
    case PhotoClicked(p) => s.(selected := Some(p))
    case Navigated(p) => s.(selected := Some(p))
    case ViewerClosed => s.(selected := None)
    case SortChosen(m) => s.(sortBy := m)
  }

  function Run(s: GalleryState, es: seq<GalleryEvent>): GalleryState
    decreases |es|
  {
    if |es| == 0 then s else Run(Step(s, es[0]), es[1..])
  }

  /** The grid shows the sorted copy. */
  function Shown(s: GalleryState): seq<Photo> {
    SortPhotos(s.sortBy, s.photos)
  }

  /** The viewer is rendered iff a photo is selected. */
  predicate ViewerShown(s: GalleryState) {
    s.selected.Some?
  }

  /**
   * Sorting, selecting, navigating and closing never reorder or change the
   * photo list: only loading the data does.
   */
  lemma {:induction false} PhotosOnlyChangeOnLoad(s: GalleryState, es: seq<GalleryEvent>)
    requires forall i :: 0 <= i < |es| ==> !es[i].DataLoaded?
    ensures Run(s, es).photos == s.photos
    decreases |es|
  {
    if |es| > 0 {
      PhotosOnlyChangeOnLoad(Step(s, es[0]), es[1..]);
    }
  }

  /** Whatever happened before, a click shows the viewer on that photo and a close hides it. */
  lemma {:induction false} ViewerShownAfter(s: GalleryState, es: seq<GalleryEvent>, p: Photo)
    ensures ViewerShown(Run(s, es + [PhotoClicked(p)]))
    ensures Run(s, es + [PhotoClicked(p)]).selected == Some(p)
    ensures !ViewerShown(Run(s, es + [ViewerClosed]))
    decreases |es|
  {
    if |es| > 0 {
      assert (es + [PhotoClicked(p)])[1..] == es[1..] + [PhotoClicked(p)];
      assert (es + [ViewerClosed])[1..] == es[1..] + [ViewerClosed];
      ViewerShownAfter(Step(s, es[0]), es[1..], p);
    } else {
      assert (es + [PhotoClicked(p)])[1..] == [];
      assert (es + [ViewerClosed])[1..] == [];
    }
  }
}

=== FILE: progressive_image.dfy ===
/**
 * The progressive image loader: one run of its effect, as the stage and
 * progress updates it emits. The image loads and the 100 ms dwell are the
 * only suspension points; their outcomes and the moment of teardown are
 * inputs.
 */
module ProgressiveImage {

  datatype Stage = Placeholder | LowQuality | HighQuality | Error

  /** The `currentStage` state: stage, displayed source, and whether it has loaded. */
  datatype StageRecord = StageRecord(stage: Stage, src: string, loaded: bool)

  /** One state update: `setCurrentStage(record)` or `setLoadingProgress(p)`. */
  datatype Update = SetStage(record: StageRecord) | SetProgress(progress: int)

  /** The hook's state. */
  datatype View = View(current: StageRecord, progress: int)

  /** The three sources and the option. */
  datatype Sources = Sources(placeholder: string, lowQuality: string, highQuality: string, progressive: bool)

  /**
   * What the outside world does during one run: whether each load succeeds,
   * and how many of the effect's resumptions (low-quality load settled,
   * dwell over, high-quality load settled) still find it mounted.
   */
  datatype Outcomes = Outcomes(lowLoads: bool, highLoads: bool, mountedResumptions: nat)

  /** What one run emits, and which sources it asks the browser to load, in order. */
  datatype Trace = Trace(updates: seq<Update>, requested: seq<string>)

  /** `enableProgressive` defaults to true. */
  const DefaultProgressive: bool := true

  /** The state before any update. */
  function Initial(s: Sources): (v: View)
    ensures v.current.stage == Placeholder && v.current.src == s.placeholder && !v.current.loaded
    ensures v.progress == 0
  {
    View(StageRecord(Placeholder, s.placeholder, false), 0)
  }

  function ErrorRecord(s: Sources): StageRecord {
    StageRecord(Error, s.placeholder, false)
  }

  /** Whether resumption `k` (0: low settled, 1: dwell over, 2: high settled) sees the component mounted. */
  predicate MountedAt(o: Outcomes, k: nat) {
    k < o.mountedResumptions
  }

  /** The first, synchronous part of the progressive path. */
  function PlaceholderShown(s: Sources): seq<Update> {
    [SetStage(StageRecord(Placeholder, s.placeholder, true)), SetProgress(10)]
  }

  function LowShown(s: Sources): seq<Update> {
    [SetStage(StageRecord(LowQuality, s.lowQuality, true)), SetProgress(50)]
  }

  function HighShown(s: Sources): seq<Update> {
    [SetStage(StageRecord(HighQuality, s.highQuality, true)), SetProgress(100)]
  }

  /**
   * One run of the effect. The direct path loads only the high-quality
   * source and has no mounted check. The progressive path shows the
   * placeholder, loads the low-quality source, waits, then loads the
   * high-quality source, checking after every suspension that it is still
   * mounted; a failed load goes to the error record if still mounted.
   */
  function Effect(s: Sources, o: Outcomes): (t: Trace)
    ensures !s.progressive ==> t.requested == [s.highQuality]
    ensures s.progressive ==> |t.updates| >= 2 && t.updates[..2] == PlaceholderShown(s)
    ensures s.progressive ==> 1 <= |t.requested| <= 2 && t.requested[0] == s.lowQuality
    ensures s.progressive && |t.requested| == 2 ==> t.requested[1] == s.highQuality
  {
    if !s.progressive then
      if o.highLoads then Trace(HighShown(s), [s.highQuality])
      else Trace([SetStage(ErrorRecord(s))], [s.highQuality])
    else
      var start := PlaceholderShown(s);
      if !o.lowLoads then
        Trace(start + (if MountedAt(o, 0) then [SetStage(ErrorRecord(s))] else []), [s.lowQuality])
      else if !MountedAt(o, 0) then
        Trace(start, [s.lowQuality])
      else if !MountedAt(o, 1) then
        Trace(start + LowShown(s), [s.lowQuality])
      else if !o.highLoads then
        Trace(start + LowShown(s) + (if MountedAt(o, 2) then [SetStage(ErrorRecord(s))] else []),
              [s.lowQuality, s.highQuality])
      else
        Trace(start + LowShown(s) + (if MountedAt(o, 2) then HighShown(s) else []),
              [s.lowQuality, s.highQuality])
  }

  function ApplyOne(v: View, u: Update): View {
    match u
    case SetStage(r) => v.(current := r)
    case SetProgress(p) => v.(progress := p)
  }

  /** The state after the updates, in order. */
  function Apply(v: View, us: seq<Update>): View
    decreases |us|
  {
    if |us| == 0 then v else Apply(ApplyOne(v, us[0]), us[1..])
  }

  /** The state the hook settles in after one run. */
  function Final(s: Sources, o: Outcomes): View {
    Apply(Initial(s), Effect(s, o).updates)
  }

  predicate IsLoading(v: View) {
    v.current.stage != HighQuality && v.current.stage != Error
  }

  predicate IsError(v: View) {
    v.current.stage == Error
  }

  /** The stage records among the updates, in order. */
  function Stages(us: seq<Update>): seq<StageRecord>
    decreases |us|
  {
    if |us| == 0 then []
    else (if us[0].SetStage? then [us[0].record] else []) + Stages(us[1..])
  }

  /** The progress values among the updates, in order. */
  function Progresses(us: seq<Update>): seq<int>
    decreases |us|
  {
    if |us| == 0 then []
    else (if us[0].SetProgress? then [us[0].progress] else []) + Progresses(us[1..])
  }

  /** Stage and progress records of a concatenation are the concatenations of the parts' records. */
  lemma StagesAppend(a: seq<Update>, b: seq<Update>)
    ensures Stages(a + b) == Stages(a) + Stages(b)
    ensures Progresses(a + b) == Progresses(a) + Progresses(b)
  {
    StagesOfAppend(a, b);
    ProgressesOfAppend(a, b);
  }

  lemma {:induction false} StagesOfAppend(a: seq<Update>, b: seq<Update>)
    ensures Stages(a + b) == Stages(a) + Stages(b)
    decreases |a|
  {
    if |a| == 0 {
      assert a + b == b;
    } else {
      assert (a + b)[0] == a[0];
      assert (a + b)[1..] == a[1..] + b;
      StagesOfAppend(a[1..], b);
      var h := if a[0].SetStage? then [a[0].record] else [];
      calc {
        Stages(a + b);
        h + Stages(a[1..] + b);
        h + (Stages(a[1..]) + Stages(b));
        (h + Stages(a[1..])) + Stages(b);
      }
    }
  }

  lemma {:induction false} ProgressesOfAppend(a: seq<Update>, b: seq<Update>)
    ensures Progresses(a + b) == Progresses(a) + Progresses(b)
    decreases |a|
  {
    if |a| == 0 {
      assert a + b == b;
    } else {
      assert (a + b)[0] == a[0];
      assert (a + b)[1..] == a[1..] + b;
      ProgressesOfAppend(a[1..], b);
      var h := if a[0].SetProgress? then [a[0].progress] else [];
      calc {
        Progresses(a + b);
        h + Progresses(a[1..] + b);
        h + (Progresses(a[1..]) + Progresses(b));
        (h + Progresses(a[1..])) + Progresses(b);
      }
    }
  }

  lemma StagesOfOne(u: Update)
    ensures Stages([u]) == (if u.SetStage? then [u.record] else [])
    ensures Progresses([u]) == (if u.SetProgress? then [u.progress] else [])
  {
    assert [u][1..] == [];
  }

  lemma StagesOfTwo(u: Update, w: Update)
    ensures Stages([u, w]) == Stages([u]) + Stages([w])
    ensures Progresses([u, w]) == Progresses([u]) + Progresses([w])
  {
    assert [u, w] == [u] + [w];
    StagesAppend([u], [w]);
  }

  /**
   * The last stage update decides the final record; with no stage update
   * the record is the initial one.
   */
  lemma {:induction false} FinalRecordIsLastStage(v: View, us: seq<Update>)
    ensures Apply(v, us).current == (if |Stages(us)| == 0 then v.current else Stages(us)[|Stages(us)| - 1])
    ensures Apply(v, us).progress == (if |Progresses(us)| == 0 then v.progress else Progresses(us)[|Progresses(us)| - 1])
    decreases |us|
  {
    if |us| > 0 {
      FinalRecordIsLastStage(ApplyOne(v, us[0]), us[1..]);
    }
  }

  /** The rank of a stage on the forward path placeholder, low quality, high quality. */
  function Rank(st: Stage): nat {
    match st
    case Placeholder => 0
    case LowQuality => 1
    case HighQuality => 2
    case Error => 3
  }

  /**
   * Stages only move forward, an error is terminal, and high quality and
   * error never both appear.
   */
  predicate Forward(rs: seq<StageRecord>) {
    && (forall i, j :: 0 <= i < j < |rs| ==> Rank(rs[i].stage) < Rank(rs[j].stage))
    && (forall i, j :: 0 <= i < |rs| && 0 <= j < |rs| ==> !(rs[i].stage == HighQuality && rs[j].stage == Error))
  }

  lemma StagesOfShown(s: Sources)
    ensures Stages(PlaceholderShown(s)) == [StageRecord(Placeholder, s.placeholder, true)]
    ensures Stages(LowShown(s)) == [StageRecord(LowQuality, s.lowQuality, true)]
    ensures Stages(HighShown(s)) == [StageRecord(HighQuality, s.highQuality, true)]
    ensures Stages([SetStage(ErrorRecord(s))]) == [ErrorRecord(s)]
    ensures Progresses(PlaceholderShown(s)) == [10]
    ensures Progresses(LowShown(s)) == [50]
    ensures Progresses(HighShown(s)) == [100]
    ensures Progresses([SetStage(ErrorRecord(s))]) == []
  {
    var p := PlaceholderShown(s);
    var l := LowShown(s);
    var h := HighShown(s);
    StagesOfTwo(p[0], p[1]);
    StagesOfOne(p[0]);
    StagesOfOne(p[1]);
    StagesOfTwo(l[0], l[1]);
    StagesOfOne(l[0]);
    StagesOfOne(l[1]);
    StagesOfTwo(h[0], h[1]);
    StagesOfOne(h[0]);
    StagesOfOne(h[1]);
    StagesOfOne(SetStage(ErrorRecord(s)));
  }

  /**
   * The progressive path with both loads succeeding and no teardown emits
   * exactly placeholder (loaded), low quality, high quality, with progress
   * 10, 50, 100, and settles on the high-quality record.
   */
  lemma ProgressiveSuccess(s: Sources, o: Outcomes)
    requires s.progressive && o.lowLoads && o.highLoads && o.mountedResumptions >= 3
    ensures Stages(Effect(s, o).updates) == [
              StageRecord(Placeholder, s.placeholder, true),
              StageRecord(LowQuality, s.lowQuality, true),
              StageRecord(HighQuality, s.highQuality, true)]
    ensures Progresses(Effect(s, o).updates) == [10, 50, 100]
    ensures Effect(s, o).requested == [s.lowQuality, s.highQuality]
    ensures Final(s, o) == View(StageRecord(HighQuality, s.highQuality, true), 100)
    ensures !IsLoading(Final(s, o)) && !IsError(Final(s, o))
  {
    var us := Effect(s, o).updates;
    StagesOfShown(s);
    StagesAppend(PlaceholderShown(s), LowShown(s));
    StagesAppend(PlaceholderShown(s) + LowShown(s), HighShown(s));
    FinalRecordIsLastStage(Initial(s), us);
  }

  /**
   * Loads happen strictly in sequence: when the low-quality load fails the
   * high-quality source is never requested, and if the component is still
   * mounted the run ends on the error record.
   */
  lemma LowFailureSkipsHigh(s: Sources, o: Outcomes)
    requires s.progressive && !o.lowLoads
    ensures Effect(s, o).requested == [s.lowQuality]
    ensures MountedAt(o, 0) ==> Final(s, o).current == ErrorRecord(s) && IsError(Final(s, o))
    ensures !MountedAt(o, 0) ==> Effect(s, o).updates == PlaceholderShown(s)
  {
    if MountedAt(o, 0) {
      var us := Effect(s, o).updates;
      StagesOfShown(s);
      StagesAppend(PlaceholderShown(s), [SetStage(ErrorRecord(s))]);
      FinalRecordIsLastStage(Initial(s), us);
    }
  }

  /**
   * A run ends in the error record exactly when a load failed while the
   * component was there to see it: in the direct path any failure, in the
   * progressive path a failure at a resumption that found it mounted.
   */
  predicate ObservedFailure(s: Sources, o: Outcomes) {
    if !s.progressive then !o.highLoads
    else (!o.lowLoads && MountedAt(o, 0)) || (o.lowLoads && !o.highLoads && MountedAt(o, 2))
  }

  lemma ErrorIffObservedFailure(s: Sources, o: Outcomes)
    ensures IsError(Final(s, o)) <==> ObservedFailure(s, o)
    ensures IsError(Final(s, o)) ==> Final(s, o).current == ErrorRecord(s)
  {
    EffectStages(s, o);
    FinalRecordIsLastStage(Initial(s), Effect(s, o).updates);
  }

  /** The run reaches the high-quality image. */
  predicate ReachedHigh(s: Sources, o: Outcomes) {
    o.highLoads && (!s.progressive || (o.lowLoads && MountedAt(o, 2)))
  }

  /**
   * The direct path: a successful load ends at the high-quality image with
   * progress 100; a failed one at the error record, the progress untouched.
   */
  lemma DirectPath(s: Sources, o: Outcomes)
    requires !s.progressive
    ensures Final(s, o) == (if o.highLoads then View(StageRecord(HighQuality, s.highQuality, true), 100)
                            else View(ErrorRecord(s), 0))
  {
    var us := Effect(s, o).updates;
    FinalRecordIsLastStage(Initial(s), us);
    StagesOfShown(s);
    if o.highLoads {
      assert us == HighShown(s);
      StagesOfTwo(SetStage(StageRecord(HighQuality, s.highQuality, true)), SetProgress(100));
      StagesOfOne(SetStage(StageRecord(HighQuality, s.highQuality, true)));
      StagesOfOne(SetProgress(100));
    } else {
      StagesOfOne(SetStage(ErrorRecord(s)));
    }
  }

  /**
   * `isLoading` and `isError` after a run: the hook errs exactly on an
   * observed failure, shows the high-quality image exactly when it reached
   * it, and is still loading exactly when neither happened.
   */
  lemma LoadingIffUnsettled(s: Sources, o: Outcomes)
    ensures IsError(Final(s, o)) <==> ObservedFailure(s, o)
    ensures Final(s, o).current.stage == HighQuality <==> ReachedHigh(s, o)
    ensures IsLoading(Final(s, o)) <==> !ObservedFailure(s, o) && !ReachedHigh(s, o)
  {
    EffectStages(s, o);
    FinalRecordIsLastStage(Initial(s), Effect(s, o).updates);
  }

  /**
   * The stage records one run emits, read off the run: placeholder (loaded),
   * then low quality and high quality as far as the loads succeed and the
   * component stays mounted, with the error record in place of a failed load.
   */
  function ExpectedStages(s: Sources, o: Outcomes): seq<StageRecord> {
    var p := StageRecord(Placeholder, s.placeholder, true);
    var l := StageRecord(LowQuality, s.lowQuality, true);
    var h := StageRecord(HighQuality, s.highQuality, true);
    var e := ErrorRecord(s);
    if !s.progressive then [if o.highLoads then h else e]
    else if !o.lowLoads then [p] + (if MountedAt(o, 0) then [e] else [])
    else if !MountedAt(o, 0) then [p]
    else if !MountedAt(o, 1) || !MountedAt(o, 2) then [p, l]
    else [p, l, if o.highLoads then h else e]
  }

  lemma EffectStages(s: Sources, o: Outcomes)
    ensures Stages(Effect(s, o).updates) == ExpectedStages(s, o)
  {
    var start := PlaceholderShown(s);
    var err: seq<Update> := [SetStage(ErrorRecord(s))];
    StagesOfShown(s);
    if !s.progressive {
    } else if !o.lowLoads {
      if MountedAt(o, 0) {
        StagesAppend(start, err);
      } else {
        assert start + [] == start;
      }
    } else if !MountedAt(o, 0) {
    } else if !MountedAt(o, 1) {
      StagesAppend(start, LowShown(s));
    } else {
      StagesAppend(start, LowShown(s));
      var tail: seq<Update> := if !MountedAt(o, 2) then [] else if o.highLoads then HighShown(s) else err;
      StagesAppend(start + LowShown(s), tail);
      if !MountedAt(o, 2) {
        assert start + LowShown(s) + tail == start + LowShown(s);
      }
    }
  }

  /** Every run moves forward through the stages. */
  lemma StagesMoveForward(s: Sources, o: Outcomes)
    ensures Forward(Stages(Effect(s, o).updates))
  {
    EffectStages(s, o);
  }

  /**
   * Teardown only cuts the progressive run short: whatever it emits is a
   * prefix of what it would have emitted had it stayed mounted, and torn down
   * before the first load settles it emits nothing after the placeholder.
   * The direct path has no such guard: teardown changes nothing.
   */
  lemma TeardownTruncates(s: Sources, o: Outcomes)
    ensures var full := Effect(s, o.(mountedResumptions := 3));
            var t := Effect(s, o);
            && |t.updates| <= |full.updates| && t.updates == full.updates[..|t.updates|]
            && |t.requested| <= |full.requested| && t.requested == full.requested[..|t.requested|]
    ensures s.progressive && o.mountedResumptions == 0 ==> Effect(s, o).updates == PlaceholderShown(s)
    ensures !s.progressive ==> Effect(s, o) == Effect(s, o.(mountedResumptions := 0))
  {
    var full := Effect(s, o.(mountedResumptions := 3));
    var t := Effect(s, o);
    assert PlaceholderShown(s) + LowShown(s) == (PlaceholderShown(s) + LowShown(s) + [])[..4];
  }
}

=== FILE: smart_prefetch.dfy ===
/**
 * The engagement-driven prefetch trigger: a latch that lets the first
 * trigger (the engagement timer, a scroll past the threshold, or a direct
 * call) start one batch of thumbnail prefetches, and never another.
 */
module SmartPrefetch {
  import opened Text
  import opened PhotoGallery
  import opened Cloudinary
  import opened ImageUtils

  datatype Options = Options(engagementTimeMs: int, scrollThreshold: int, maxImages: int)

  /** 3 seconds on the page, 100 px of scroll, 8 images. */
  const DefaultOptions: Options := Options(3000, 100, 8)

  /** The stagger this hook passes to `prefetchImages`. */
  const StaggerDelay: int := 200

  /** The hook's state: the gallery it was rendered with, the latch, and the two flags. */
  datatype SmartState = SmartState(gallery: seq<Photo>, triggered: bool, isPrefetching: bool, prefetched: bool)

  function Initial(gallery: seq<Photo>): SmartState {
    SmartState(gallery, false, false, false)
  }

  /**
   * The URLs of one batch: the thumbnail URL of each of the first
   * `maxImages` photos, in gallery order.
   */
  function Batch(gallery: seq<Photo>, maxImages: int): (urls: seq<string>)
    ensures |urls| == SliceEnd(|gallery|, maxImages)
    ensures forall i :: 0 <= i < |urls| ==> urls[i] == ThumbnailUrl(gallery[i].thumbnail)
  {
    var top := TopGalleryImages(gallery, maxImages);
    seq(|top|, i requires 0 <= i < |top| => ThumbnailUrl(top[i]))
  }

  /**
   * `triggerPrefetch`: a no-op when the latch is set or the gallery is
   * empty (which leaves the latch unset); otherwise it sets the latch and
   * `isPrefetching` before starting the batch.
   */
  function TriggerPrefetch(s: SmartState, opts: Options): (r: (SmartState, Option<BatchRequest>))
    ensures s.triggered || |s.gallery| == 0 ==> r == (s, None)
    ensures r.1.Some? <==> !s.triggered && |s.gallery| > 0
    ensures r.1.Some? ==> r.0.triggered && r.0.isPrefetching && r.1.value.urls == Batch(s.gallery, opts.maxImages)
    ensures r.0.gallery == s.gallery && r.0.prefetched == s.prefetched
  {
    if s.triggered || |s.gallery| == 0 then (s, None)
    else (s.(triggered := true, isPrefetching := true), Some(BatchRequest(Batch(s.gallery, opts.maxImages), StaggerDelay)))
  }

  /** The scroll listener fires only strictly past the threshold. */
  predicate ScrollFires(opts: Options, scrollY: int) {
    scrollY > opts.scrollThreshold
  }

  datatype SmartEvent =
    | GalleryChanged(gallery: seq<Photo>)  // a re-render with new data (the effect re-runs; the latch stays)
    | TimerFired                           // the engagement timer
    | Scrolled(scrollY: int)               // a scroll event
    | Called                               // a direct call of the returned `triggerPrefetch`
    | Settled(resolved: bool)              // the awaited batch resolved or threw; ignored with none in flight

  function Step(s: SmartState, opts: Options, e: SmartEvent): (r: (SmartState, Option<BatchRequest>))
    ensures e.TimerFired? || e.Called? || (e.Scrolled? && ScrollFires(opts, e.scrollY)) ==> r == TriggerPrefetch(s, opts)
    ensures e.Scrolled? && !ScrollFires(opts, e.scrollY) ==> r == (s, None)
    ensures e.GalleryChanged? ==> r == (s.(gallery := e.gallery), None)
    ensures e.Settled? ==> r.1.None? && !r.0.isPrefetching && r.0.triggered == s.triggered
    ensures e.Settled? ==> (r.0.prefetched <==> s.prefetched || (s.isPrefetching && e.resolved))
    ensures e.Settled? && !s.isPrefetching ==> r == (s, None)
    ensures e.Settled? ==> r.0.gallery == s.gallery
  {
    match e
    case GalleryChanged(g) => (s.(gallery := g), None)
    case TimerFired => TriggerPrefetch(s, opts)
    case Scrolled(y) => if ScrollFires(opts, y) then TriggerPrefetch(s, opts) else (s, None)
    case Called => TriggerPrefetch(s, opts)
    case Settled(ok) =>
      // only the batch in flight settles
      if !s.isPrefetching then (s, None)
      else (s.(prefetched := s.prefetched || ok, isPrefetching := false), None)
  }

  /** The state after the events, and the batches started, in order. */
  function Run(s: SmartState, opts: Options, es: seq<SmartEvent>): (SmartState, seq<BatchRequest>)
    decreases |es|
  {
    if |es| == 0 then (s, [])
    else
      var (s1, b) := Step(s, opts, es[0]);
      var (s2, bs) := Run(s1, opts, es[1..]);
      (s2, (if b.Some? then [b.value] else []) + bs)
  }

  /**
   * Whatever fires, and however often: at most one batch per instance, none
   * once the latch is set, and the latch is set exactly when a batch started.
   */
  lemma {:induction false} AtMostOneBatch(s: SmartState, opts: Options, es: seq<SmartEvent>)
    ensures |Run(s, opts, es).1| <= (if s.triggered then 0 else 1)
    ensures Run(s, opts, es).0.triggered <==> s.triggered || |Run(s, opts, es).1| == 1
    decreases |es|
  {
    if |es| > 0 {
      var (s1, b) := Step(s, opts, es[0]);
      assert s1.triggered <==> s.triggered || b.Some?;
      assert b.Some? ==> !s.triggered;
      AtMostOneBatch(s1, opts, es[1..]);
    }
  }

  /** With the data unchanged, the batch is the first `maxImages` thumbnails of that data. */
  lemma {:induction false} BatchIsFirstThumbnails(s: SmartState, opts: Options, es: seq<SmartEvent>)
    requires forall i :: 0 <= i < |es| ==> !es[i].GalleryChanged?
    ensures Run(s, opts, es).0.gallery == s.gallery
    ensures forall b :: b in Run(s, opts, es).1 ==> b == BatchRequest(Batch(s.gallery, opts.maxImages), StaggerDelay)
    decreases |es|
  {
    if |es| > 0 {
      var (s1, b) := Step(s, opts, es[0]);
      BatchIsFirstThumbnails(s1, opts, es[1..]);
    }
  }

  /** `prefetched` only becomes true when a batch in flight resolves. */
  lemma {:induction false} PrefetchedOnlyOnSuccess(s: SmartState, opts: Options, es: seq<SmartEvent>)
    requires Run(s, opts, es).0.prefetched && !s.prefetched
    ensures exists i :: 0 <= i < |es| && es[i] == Settled(true) && Run(s, opts, es[..i]).0.isPrefetching
    decreases |es|
  {
    var (s1, b) := Step(s, opts, es[0]);
    if s1.prefetched {
      assert es[..0] == [];
      assert es[0] == Settled(true) && Run(s, opts, es[..0]).0.isPrefetching;
    } else {
      PrefetchedOnlyOnSuccess(s1, opts, es[1..]);
      var i :| 0 <= i < |es[1..]| && es[1..][i] == Settled(true) && Run(s1, opts, es[1..][..i]).0.isPrefetching;
      RunPrefix(s, opts, es, i);
      assert es[i + 1] == Settled(true) && Run(s, opts, es[..i + 1]).0.isPrefetching;
    }
  }

  lemma RunPrefix(s: SmartState, opts: Options, es: seq<SmartEvent>, i: nat)
    requires i < |es|
    ensures Run(s, opts, es[..i + 1]).0 == Run(Step(s, opts, es[0]).0, opts, es[1..][..i]).0
  {
    assert es[..i + 1][0] == es[0];
    assert es[..i + 1][1..] == es[1..][..i];
  }

  /** The hook's flags never run ahead of its latch. */
  predicate Latched(s: SmartState) {
    (s.isPrefetching || s.prefetched) ==> s.triggered
  }

  lemma {:induction false} RunKeepsLatched(s: SmartState, opts: Options, es: seq<SmartEvent>)
    requires Latched(s)
    ensures Latched(Run(s, opts, es).0)
    decreases |es|
  {
    if |es| > 0 {
      RunKeepsLatched(Step(s, opts, es[0]).0, opts, es[1..]);
    }
  }

  /** From a fresh hook, `prefetched` is only ever set after the one batch was started. */
  lemma PrefetchedAfterBatch(gallery: seq<Photo>, opts: Options, es: seq<SmartEvent>)
    ensures Run(Initial(gallery), opts, es).0.prefetched ==> |Run(Initial(gallery), opts, es).1| == 1
  {
    RunKeepsLatched(Initial(gallery), opts, es);
    AtMostOneBatch(Initial(gallery), opts, es);
  }

  /** Once a batch has settled, `isPrefetching` is false, whichever way it settled. */
  lemma SettledEndsPrefetching(s: SmartState, opts: Options, es: seq<SmartEvent>, resolved: bool)
    ensures !Run(s, opts, es + [Settled(resolved)]).0.isPrefetching
  {
    RunAppend(s, opts, es, [Settled(resolved)]);
  }

  lemma {:induction false} RunAppend(s: SmartState, opts: Options, a: seq<SmartEvent>, b: seq<SmartEvent>)
    ensures Run(s, opts, a + b).0 == Run(Run(s, opts, a).0, opts, b).0
    ensures Run(s, opts, a + b).1 == Run(s, opts, a).1 + Run(Run(s, opts, a).0, opts, b).1
    decreases |a|
  {
    if |a| == 0 {
      assert a + b == b;
    } else {
      assert (a + b)[1..] == a[1..] + b;
      var (s1, _) := Step(s, opts, a[0]);
      RunAppend(s1, opts, a[1..], b);
    }
  }
}

=== FILE: text.dfy ===
/**
 * String helpers shared by the gallery modules: the JavaScript string
 * operations the source relies on (`startsWith`, `split`, `join`, `replace`
 * with a string pattern, `${n}` of an integer), each written once. `split`
 * and `join` invert each other, and `ParseInt` inverts `${n}`; `IndexOf`
 * and `LastIndexOf` are characterised by where the occurrence lies.
 */
module Text {

  datatype Option<T> = None | Some(value: T)

  /** `s.startsWith(p)` */
  predicate StartsWith(s: string, p: string) {
    |p| <= |s| && s[..|p|] == p
  }

  /** `s.endsWith(p)` */
  predicate EndsWith(s: string, p: string) {
    |p| <= |s| && s[|s| - |p|..] == p
  }

  /** `pat` occurs in `s` starting at index `i`. */
  predicate OccursAt(s: string, pat: string, i: nat) {
    i + |pat| <= |s| && s[i..i + |pat|] == pat
  }

  // ---------------------------------------------------------------------------
  // Decimal rendering of integers (`${n}` for an integral JavaScript number)
  // ---------------------------------------------------------------------------

  predicate IsDigit(c: char) {
    '0' <= c <= '9'
  }

  predicate AllDigits(s: string) {
    forall i :: 0 <= i < |s| ==> IsDigit(s[i])
  }

  function DigitChar(d: nat): (c: char)
    requires d < 10
    ensures IsDigit(c)
    ensures c as int - '0' as int == d
  {
    "0123456789"[d]
  }

  function DigitValue(c: char): (d: nat)
    requires IsDigit(c)
    ensures d < 10
  {
    c as int - '0' as int
  }

  /** Decimal digits of `n`, most significant first, without leading zeros. */
  function NatToString(n: nat): (r: string)
    ensures |r| >= 1 && AllDigits(r)
    ensures |r| > 1 ==> r[0] != '0'
    decreases n
  {
    if n < 10 then [DigitChar(n)] else NatToString(n / 10) + [DigitChar(n % 10)]
  }

  /** The value of a string of decimal digits. */
  function ParseNat(s: string): nat
    requires AllDigits(s)
    decreases |s|
  {
    if s == [] then 0 else ParseNat(s[..|s| - 1]) * 10 + DigitValue(s[|s| - 1])
  }

  lemma {:induction false} ParseNatOfNatToString(n: nat)
    ensures ParseNat(NatToString(n)) == n
    decreases n
  {
    if n >= 10 {
      var r := NatToString(n);
      assert r[..|r| - 1] == NatToString(n / 10);
      ParseNatOfNatToString(n / 10);
    }
  }

  /** `${n}`: an optional minus sign followed by the digits of |n|. */
  function IntToString(n: int): (r: string)
    ensures |r| >= 1
    ensures n < 0 <==> r[0] == '-'
    ensures '-' !in r[1..] && ',' !in r && '/' !in r && '.' !in r && ' ' !in r
  {
    if n < 0 then "-" + NatToString(-n) else NatToString(n)
  }

  /** Reads back what `IntToString` writes. */
  function ParseInt(s: string): Option<int> {
    if |s| >= 2 && s[0] == '-' && AllDigits(s[1..]) then Some(-(ParseNat(s[1..]) as int))
    else if |s| >= 1 && AllDigits(s) then Some(ParseNat(s))
    else None
  }

  lemma ParseIntOfIntToString(n: int)
    ensures ParseInt(IntToString(n)) == Some(n)
  {
    var s := IntToString(n);
    if n < 0 {
      var digits := NatToString(-n);
      assert s[1..] == digits;
      ParseNatOfNatToString(-n);
      assert ParseNat(s[1..]) == -n;
    } else {
      ParseNatOfNatToString(n);
      assert s[0] != '-';
    }
  }

  // ---------------------------------------------------------------------------
  // `parts.join(sep)` and `s.split(sep)` for a one-character separator
  // ---------------------------------------------------------------------------

  function Join(parts: seq<string>, sep: char): string
    decreases |parts|
  {
    if |parts| == 0 then ""
    else if |parts| == 1 then parts[0]
    else parts[0] + [sep] + Join(parts[1..], sep)
  }

  /** JavaScript's `split`: always at least one piece, the empty string giving `[""]`. */
  function Split(s: string, sep: char): (r: seq<string>)
    ensures |r| >= 1
    ensures StartsWith(s, r[0])
    ensures forall i :: 0 <= i < |r| ==> sep !in r[i]
    decreases |s|
  {
    if |s| == 0 then [""]
    else
      var rest := Split(s[1..], sep);
      if s[0] == sep then [""] + rest
      else [[s[0]] + rest[0]] + rest[1..]
  }

  lemma {:induction false} JoinOfSplit(s: string, sep: char)
    ensures Join(Split(s, sep), sep) == s
    decreases |s|
  {
    if |s| > 0 {
      var rest := Split(s[1..], sep);
      JoinOfSplit(s[1..], sep);
      if s[0] == sep {
        assert Split(s, sep) == [""] + rest;
        assert ([""] + rest)[1..] == rest;
      } else {
        var r := Split(s, sep);
        assert r == [[s[0]] + rest[0]] + rest[1..];
        if |rest| == 1 {
          assert Join(r, sep) == [s[0]] + rest[0] == [s[0]] + Join(rest, sep);
        } else {
          assert r[1..] == rest[1..];
          assert Join(rest, sep) == rest[0] + [sep] + Join(rest[1..], sep);
        }
        assert s == [s[0]] + s[1..];
      }
    }
  }

  lemma {:induction false} SplitWithoutSeparator(a: string, sep: char)
    requires sep !in a
    ensures Split(a, sep) == [a]
    decreases |a|
  {
    if |a| > 0 {
      SplitWithoutSeparator(a[1..], sep);
      assert [a[0]] + a[1..] == a;
    }
  }

  lemma {:induction false} SplitAtFirstSeparator(a: string, b: string, sep: char)
    requires sep !in a
    ensures Split(a + [sep] + b, sep) == [a] + Split(b, sep)
    decreases |a|
  {
    var s := a + [sep] + b;
    if |a| == 0 {
      assert s[1..] == b;
    } else {
      assert s[1..] == a[1..] + [sep] + b;
      SplitAtFirstSeparator(a[1..], b, sep);
      assert [a[0]] + a[1..] == a;
    }
  }

  /** Joining pieces that contain no separator and splitting again gives the pieces back. */
  lemma {:induction false} SplitOfJoin(parts: seq<string>, sep: char)
    requires |parts| >= 1
    requires forall i :: 0 <= i < |parts| ==> sep !in parts[i]
    ensures Split(Join(parts, sep), sep) == parts
    decreases |parts|
  {
    if |parts| == 1 {
      SplitWithoutSeparator(parts[0], sep);
    } else {
      SplitOfJoin(parts[1..], sep);
      SplitAtFirstSeparator(parts[0], Join(parts[1..], sep), sep);
      assert [parts[0]] + parts[1..] == parts;
    }
  }

  /** A character absent from every piece and different from the separator is absent from the join. */
  lemma {:induction false} NotInJoin(parts: seq<string>, sep: char, c: char)
    requires c != sep
    requires forall i :: 0 <= i < |parts| ==> c !in parts[i]
    ensures c !in Join(parts, sep)
    decreases |parts|
  {
    if |parts| > 1 {
      NotInJoin(parts[1..], sep, c);
    }
  }

  /** A join ends with its last part, and with more than one part the separator comes just before it. */
  lemma {:induction false} JoinEndsWithLast(parts: seq<string>, sep: char)
    requires |parts| >= 1
    ensures var j := Join(parts, sep); var last := parts[|parts| - 1];
            && EndsWith(j, last)
            && (|parts| > 1 ==> |j| > |last| && j[|j| - |last| - 1] == sep)
    decreases |parts|
  {
    if |parts| > 1 {
      var last := parts[|parts| - 1];
      var tail := Join(parts[1..], sep);
      var j := Join(parts, sep);
      JoinEndsWithLast(parts[1..], sep);
      assert j == parts[0] + [sep] + tail;
      assert j[|j| - |tail|..] == tail;
      assert j[|j| - |last|..] == tail[|tail| - |last|..];
      if |parts| == 2 {
        assert tail == last;
      } else {
        assert j[|j| - |last| - 1] == tail[|tail| - |last| - 1];
      }
    }
  }

  /**
   * `s.split(sep).pop()`: the last piece is the text after the last
   * separator, or all of `s` when there is none.
   */
  lemma SplitLastPiece(s: string, sep: char)
    ensures var parts := Split(s, sep); var last := parts[|parts| - 1];
            && EndsWith(s, last)
            && (sep in s <==> |parts| > 1)
            && (sep !in s ==> last == s)
            && (sep in s ==> |s| > |last| && s[|s| - |last| - 1] == sep)
  {
    var parts := Split(s, sep);
    var last := parts[|parts| - 1];
    JoinOfSplit(s, sep);
    JoinEndsWithLast(parts, sep);
    if |parts| == 1 {
      assert s == parts[0];
      assert sep !in s;
    } else {
      assert s[|s| - |last| - 1] == sep;
      assert sep in s;
    }
  }

  // ---------------------------------------------------------------------------
  // Searching
  // ---------------------------------------------------------------------------

  /** The index of the first occurrence of `pat` in `s`, if any (`indexOf`). */
  function IndexOf(s: string, pat: string): (r: Option<nat>)
    ensures r.Some? ==> OccursAt(s, pat, r.value)
    ensures r.Some? ==> forall j :: 0 <= j < r.value ==> !OccursAt(s, pat, j)
    ensures r.None? ==> forall j :: 0 <= j ==> !OccursAt(s, pat, j)
    decreases |s|
  {
    if |s| < |pat| then None
    else if s[..|pat|] == pat then Some(0)
    else
      match IndexOf(s[1..], pat)
      case None =>
        assert forall j :: 1 <= j ==> (OccursAt(s, pat, j) <==> OccursAt(s[1..], pat, j - 1));
        None
      case Some(i) =>
        assert forall j :: 1 <= j ==> (OccursAt(s, pat, j) <==> OccursAt(s[1..], pat, j - 1));
        Some(i + 1)
  }

  /** `s.replace(pat, rep)` with a string pattern: only the first occurrence is replaced. */
  function ReplaceFirst(s: string, pat: string, rep: string): (r: string)
    ensures (forall j :: 0 <= j ==> !OccursAt(s, pat, j)) ==> r == s
    ensures forall i: nat :: OccursAt(s, pat, i) && (forall j :: 0 <= j < i ==> !OccursAt(s, pat, j)) ==>
              r == s[..i] + rep + s[i + |pat|..]
    ensures forall j :: OccursAt(s, pat, j) ==> |r| == |s| - |pat| + |rep|
  {
    match IndexOf(s, pat)
    case None => s
    case Some(i) => s[..i] + rep + s[i + |pat|..]
  }

  /** The index of the last occurrence of `c` in `s`, if any (`lastIndexOf`). */
  function LastIndexOf(s: string, c: char): (r: Option<nat>)
    ensures r.Some? ==> r.value < |s| && s[r.value] == c && c !in s[r.value + 1..]
    ensures r.None? <==> c !in s
    decreases |s|
  {
    if |s| == 0 then None
    else if s[|s| - 1] == c then Some(|s| - 1)
    else
      assert s == s[..|s| - 1] + [s[|s| - 1]];
      LastIndexOf(s[..|s| - 1], c)
  }
}
